=== FILE: README.md ===
# Carousel, lightbox, Google reviews and config endpoint — a Dafny model

This project models the decision logic of a small marketing site:

- the browser widgets in `app.js`: each image `Carousel` (slide index, transition guard,
  autoplay interval, dots and buttons, keyboard, mouse and swipe input) and the page-wide
  `Lightbox` (gallery collected from the carousel images, open / close / prev / next,
  counter and button visibility, keyboard, click and swipe input);
- the review renderer in `google-reviews.js`: the star glyphs, the relative-date buckets,
  the field fallbacks that map the two Places API review shapes onto one card, the
  six-card cap, and the order in which `init`, `fetchReviews` and `fetchReviewsLegacy`
  decide between cards and an error message;
- the config endpoints in `server.js`: `loadConfig`, `saveConfig`, `GET /api/config`
  and the authenticated `POST /api/config`.

Everything is immutable data plus pure functions. Timers are explicit events: the guard
release, an autoplay interval firing with its handle, and the image-collection retry. The
network, the file system, the environment and the clock are inputs. Ratings are integer
tenths of a star (`43` is 4.3). A date is the whole number of days since the review. The
stored config file and the HTTP bodies are JSON values. Reads and writes on them follow
JavaScript: `||` and `!` use truthiness, and reading a property of `null` throws. Writing
a property of `null` throws too. A write to any other non-object is lost.

Modules: `Common` (option type, wrap-around arithmetic), `Decimal` (number rendering and
its parser), `Swipe`, `Carousel`, `Lightbox`, `Stars`, `RelativeDate`, `ReviewCard`,
`ReviewsClient`, `Json`, `ConfigServer`, `ConfigFlow` (the round trip from the admin
endpoint to the page).

Behaviours of the code worth knowing:

- `goToSlide` has no bounds check. Only dots call it, and dots exist only for real slides.
  `Carousel.GoToSlideHasNoBoundsCheck` records this.
- Autoplay starts even for a carousel with a single slide.
- The legacy Places API is tried only when the new request throws. A new-API body without
  reviews shows "Nenhuma avaliação encontrada." and does not fall back: the legacy
  `else if` branch in `fetchReviews` is commented out.
- A Places API (New) review carries its photo in `authorAttribution.photoUri`, which the
  card never reads, so such reviews always show the avatar generated from the name.
- The star string does not always have five glyphs, and a tap without movement can swipe.
  The model keeps both as written. See Findings.

## Model

| member | source | states |
|---|---|---|
| Common.WrapNext | app.js:261 | `(i + 1) % n` steps forward round the circle: `i + 1` below the last position, 0 from the last |
| Common.WrapPrev | app.js:267 | `(i - 1 + n) % n` steps backward: `i - 1` above 0, the last position from 0 |
| Swipe.Classify | app.js:297-304 | with `diff = startX - endX`: next iff `diff > 50`, prev iff `-diff > 50`, nothing iff `abs(diff) <= 50` (exactly 50 does nothing) |
| Swipe.TouchStartAsWritten | app.js:282-286 | touchstart records `startX` and starts dragging but keeps the previous gesture's `currentX` |
| Swipe.TouchStart | app.js:154-157 | corrected touchstart: the new gesture starts with `currentX = startX`, so on its own it classifies as no gesture |
| Swipe.TouchMove | app.js:159-162 | touchmove records the finger's x as `currentX` only while dragging; the start and the dragging flag are unchanged |
| Swipe.TouchEnd | app.js:164-176 | touchend is ignored unless dragging; otherwise it stops dragging and classifies `startX - currentX` |
| Swipe.DragTracksLastMove | app.js:159-162 | while dragging, touchmoves keep `startX` and leave the last move's x as `currentX` |
| Swipe.GestureOfDrag | app.js:293-304 | with the corrected touchstart, a gesture is decided by its start and its last move; a tap with no move is never a swipe |
| Swipe.GestureOfDragAsWritten | app.js:282-304 | as written, a gesture with no move is classified against the stale `currentX` of the previous gesture |
| Swipe.TapOnFreshElementSwipes | app.js:150-176 | on a freshly set-up element a tap at x = 200 fires "next" as written, and nothing when corrected |
| Carousel.Render | app.js:243-252 | for an index in range, exactly one dot is active, at the index; prev is disabled iff the index is 0; next is disabled iff it is `n-1` |
| Carousel.UpdateCarousel | app.js:239-257 | guarded: no change; otherwise sets the guard and redraws the indicators from the index; index and timers unchanged |
| Carousel.NextSlide | app.js:259-263 | guarded: no change; otherwise the index advances by one and wraps from `n-1` to 0; the guard is set |
| Carousel.PrevSlide | app.js:265-269 | guarded: no change; otherwise the index goes back by one and wraps from 0 to `n-1`; the guard is set |
| Carousel.GoToSlide | app.js:271-275 | guarded or same index: no change; otherwise jumps to the index and redraws |
| Carousel.TransitionEnded | app.js:254-256 | the guard timer releases the guard and changes nothing else |
| Carousel.StopAutoplay | app.js:316-321 | clears the live interval, if any, and leaves the handle null |
| Carousel.StartAutoplay | app.js:309-314 | first clears the existing interval; then exactly one fresh interval is live and held by the handle |
| Carousel.Init | app.js:192-227 | a new carousel with slides is valid, at slide 0, guarded, with one autoplay interval |
| Carousel.Step | app.js:207-313 | one listener dispatch: the next button, ArrowRight and a live interval run `nextSlide`; the prev button and ArrowLeft run `prevSlide`; a dot runs `goToSlide`; a drag beyond 50px to the left goes next and to the right goes prev; nothing else moves the index; hover and touchstart pause autoplay, leaving and the end of a drag resume it; touchstart keeps the stale `currentX`; a stale interval or an idle touchend changes nothing |
| Carousel.TapAdvancesFreshCarousel | app.js:282-304 | on a freshly set-up carousel a plain tap at x = 200 advances from slide 0 to slide 1 |
| Carousel.StepKeepsValid | app.js:207-321 | every button, dot, key, mouse, touch or timer event keeps the index in `[0,n)`, the indicators matching it, and at most the handle's interval live |
| Carousel.GuardBlocksIndexChange | app.js:259-275 | while a transition is in flight, no event other than the guard timer changes the index |
| Carousel.AtMostOneAutoplayTimer | app.js:309-321 | in a valid carousel at most one autoplay interval is live, and none iff the handle is null |
| Carousel.PrevUndoesNext | app.js:259-269 | with the guard released in between, prev after next restores the index |
| Carousel.AdvanceKeepsValid | app.js:254-263 | a next followed by the guard release keeps the carousel valid and unguarded |
| Carousel.AdvanceTimesRotates | app.js:259-263 | k released nexts (k at most n) move the index k places round the circle |
| Carousel.FullCycleReturns | app.js:259-263 | n released nexts return a carousel of n slides to its starting index |
| Carousel.GoToSlideHasNoBoundsCheck | app.js:271-275 | `goToSlide` accepts an index past the last slide; its range comes only from the dots |
| Lightbox.SourceOf | app.js:59 | an image's source is its `src`, else its `data-src`, else empty |
| Lightbox.AddImage | app.js:60-62 | a source is appended iff it is non-empty and not yet in the gallery |
| Lightbox.Collect | app.js:56-63 | collecting only appends, never introduces a duplicate, keeps every non-empty source and adds nothing else |
| Lightbox.FirstOccurrencesMembers | app.js:58-63 | a source is in the first-occurrence list iff it occurs and is non-empty |
| Lightbox.CollectSnoc | app.js:58-63 | collecting one more image is one more `AddImage` step after the rest |
| Lightbox.CollectIsFirstOccurrences | app.js:56-63 | the collected gallery is exactly the non-empty sources at their first occurrence, in document order |
| Lightbox.Init | app.js:2-17 | a new lightbox is valid, closed, at index 0, with the first-occurrence gallery |
| Lightbox.CollectRetry | app.js:65-67 | the retry re-collects only while the gallery is empty and is a no-op otherwise |
| Lightbox.UpdateCounter | app.js:129-136 | the counter is visible iff there is more than one image, and then reads `i+1 / len` |
| Lightbox.CounterTextInjective | app.js:131 | the counter text determines both numbers it shows |
| Lightbox.Show | app.js:73-79 | image, alt text, counter and buttons all show the chosen image; buttons visible iff more than one image |
| Lightbox.Open | app.js:70-86 | an index outside `[0,len)` changes nothing; in range it opens at that index, displays it and locks scroll |
| Lightbox.Close | app.js:88-92 | closes the overlay and restores scroll; gallery and index unchanged |
| Lightbox.Next | app.js:111-127 | advances by one, wrapping from the last image to the first, and displays it |
| Lightbox.Prev | app.js:94-109 | goes back by one, wrapping from the first image to the last, and displays it |
| Lightbox.KeyDown | app.js:30-40 | keys act only while open: Escape closes, ArrowLeft is prev, ArrowRight is next, other keys do nothing |
| Lightbox.IndexOf | app.js:46 | `findIndex` gives the first position holding the source, or none iff it is absent |
| Lightbox.ImageClick | app.js:43-51 | clicking an uncollected image does nothing; a collected one opens the lightbox showing it |
| Lightbox.ClickOpensClickedImage | app.js:43-51 | in the duplicate-free gallery, clicking the k-th image opens the lightbox at index k |
| Lightbox.Step | app.js:15-176 | one listener dispatch: the gallery changes only on a retry; close and a backdrop click close it; a click inside the overlay, a key while closed and a click on an uncollected image change nothing; the next and prev buttons run `next` and `prev`, which move the index iff there is more than one image; a drag beyond 50px to the left goes next and to the right goes prev, a shorter one does nothing; touchstart keeps the stale `currentX` |
| Lightbox.StepKeepsValid | app.js:15-177 | every event keeps the gallery duplicate-free, the index in range and, while open, the display consistent with scroll locked |
| Lightbox.PrevUndoesNext | app.js:94-127 | prev after next restores the index |
| Lightbox.NextTimesRotates | app.js:111-112 | k nexts (k at most len) move the index k places round the circle |
| Lightbox.FullCycleReturns | app.js:111-112 | len nexts return to the starting image |
| Stars.StarsAsWritten | google-reviews.js:194-213 | as written: floor(r) full stars; the half glyph iff the fraction is at least .5 and r < 5; `5 - ceil(r)` empty stars (none above 5); nothing else, full stars first, then the half, then the empty ones |
| Stars.StarsAsWrittenLength | google-reviews.js:195-209 | as written: 5 glyphs for whole ratings and fractions of at least .5, only 4 for fractions in (0, .5) |
| Stars.FourPointThreeHasFourGlyphs | google-reviews.js:194-213 | as written, 4.3 renders as "★★★★" |
| Stars.Stars | google-reviews.js:194-213 | corrected: the same full and half stars, and the empty stars fill the rest, so ratings in [0,5] always give 5 glyphs and ratings above 5 no empty star, in the same order |
| Stars.StarsAgreeWithOriginal | google-reviews.js:194-213 | the correction coincides with the original exactly for whole ratings and fractions of at least .5 |
| Stars.SameEmptyCount | google-reviews.js:203-209 | for whole ratings and fractions of at least .5 both versions emit the same empty stars |
| Stars.LargeRatingsAgree | google-reviews.js:199-209 | above five stars neither version draws a half or an empty star, so both give the same string |
| Stars.ThreeAndAHalf | google-reviews.js:194-213 | 3.5 renders as "★★★½☆" in both versions |
| RelativeDate.FormatDays | google-reviews.js:222-230 | "Hoje" iff 0 days, "Ontem" iff 1 day, the locale month-and-year form iff at least 365 days |
| RelativeDate.DaysBucket | google-reviews.js:224 | from 2 to 29 days the label is "Há d dias" |
| RelativeDate.MonthsBucket | google-reviews.js:225-228 | from 30 to 364 days the label counts `floor(d/30)` months, in [1,12], singular iff d is in [30,59] |
| RelativeDate.DayLabelsDistinct | google-reviews.js:222-224 | under 30 days, distinct ages get distinct labels |
| RelativeDate.MonthLabelsShareMonth | google-reviews.js:225-228 | between 30 and 364 days, two ages share a label iff they share the month count |
| RelativeDate.Examples | google-reviews.js:222-228 | 10 days reads "Há 10 dias"; 40 days reads "Há 1 mês" |
| ReviewCard.ResolveAuthor | google-reviews.js:156-158 | `authorAttribution.displayName`, then `author_name`, then "Avaliador do Google"; never empty |
| ReviewCard.ResolvePhoto | google-reviews.js:161-163 | `profilePhotoUrl`, then `profile_photo_url`, then an avatar generated from the author name |
| ReviewCard.ResolveText | google-reviews.js:166-169 | `text.text`, then `text`, then `comment`, then "Avaliação sem texto."; never empty; a text object with no inner text shows as "[object Object]" |
| ReviewCard.ResolveRating | google-reviews.js:172 | a missing or zero rating becomes 5 stars; any other is kept |
| ReviewCard.ResolveStamp | google-reviews.js:176 | `publishTime`, then a non-zero `time`, else no date |
| ReviewCard.CreateCard | google-reviews.js:151-192 | a card's author, photo, text, rating and date are the fallback chains applied to the review, and its stars are `generateStars(rating)`; so it always has a non-empty author, non-empty text and a positive rating; its stars are the as-written glyphs, floor(r) full ones first, five of them for ratings up to 5 that are whole or have a fraction of at least .5, four for other fractional ratings below 5 |
| ReviewCard.CreateCardCorrected | google-reviews.js:151-192 | the same card with the corrected stars: only the stars differ, always 5 glyphs for ratings up to 5, and identical to the card as written when the rating is whole, has a fraction of at least .5 or exceeds 5 |
| ReviewCard.DisplayedCards | google-reviews.js:130-142 | at most 6 cards: one for each of the first six reviews, in upstream order |
| ReviewCard.ShapesNormaliseAlike | google-reviews.js:151-176 | the same review in the new and the legacy shape yields the same card apart from the photo and the timestamp source; a new-shape review always gets the generated avatar, a legacy one its photo when non-empty |
| ReviewCard.EmptyTextObjectShowsObject | google-reviews.js:166-169 | a new-shape text object with empty text shows "[object Object]" where the legacy shape shows the default text |
| ReviewsClient.LoadConfigFromBackend | google-reviews.js:33-54 | the key and Place ID come from a successful backend reply, falling back to ''; any other reply leaves both '' |
| ReviewsClient.FetchReviewsLegacy | google-reviews.js:112-128 | cards iff `status === 'OK'` and `result.reviews` is present; a failed request and a refused body get their own messages |
| ReviewsClient.FetchReviews | google-reviews.js:77-110 | cards iff the new body has non-empty reviews; a body without them shows "Nenhuma avaliação encontrada."; a failed request falls back to legacy (the fallback after a badge error is left out) |
| ReviewsClient.Init | google-reviews.js:56-75 | the API key is checked before the Place ID, each with its own message; nothing is requested unless both are set; at most 6 cards |
| ReviewsClient.CardsIffAccepted | google-reviews.js:84-123 | with both values set, cards appear iff the new reply is accepted, or it failed and the legacy reply is accepted |
| ConfigServer.LoadConfig | server.js:38-51 | a parsed file is returned as is; otherwise `{googleApiKey:'', googlePlaceId:'', lastUpdated:null}` |
| ConfigServer.GetConfig | server.js:67-84 | `success: true` with the stored key and Place ID, each '' when absent or falsy; 500 only when the stored value is null |
| ConfigServer.ExpectedToken | server.js:91 | `AUTH_TOKEN` when set and non-empty, else 'change-this-secret-token' |
| ConfigServer.SaveConfig | server.js:54-64 | stamps `lastUpdated` on an object config; a successful write of a non-object rewrites it unchanged (the stamp is lost); a failed write keeps the file; the result reports whether the write succeeded |
| ConfigServer.PostConfig | server.js:87-133 | 401 iff the token differs; 400 iff authorised but a field is missing or empty; 200 iff the save succeeded; `success` iff 200; the file is untouched unless 200 |
| ConfigServer.PostKeepsOtherFields | server.js:109-113 | a successful update replaces only the key and Place ID, stamps `lastUpdated`, and keeps every other stored field |
| ConfigServer.PostOverNonObjectIsLost | server.js:109-113 | over a stored number the update answers success but the file keeps its value |
| ConfigFlow.ReplyToClient | server.js:72-82 | the page receives a truthy `success` iff the read succeeded |
| ConfigFlow.PostThenGet | server.js:109-113 | after a successful update, the read endpoint returns exactly the posted key and Place ID |
| ConfigFlow.PostedConfigReachesFetch | google-reviews.js:56-70 | after a successful update, the client's `init` (once the page creates the client) passes both checks and requests reviews |
| ConfigFlow.FreshServerShowsMissingKey | google-reviews.js:57-60 | with no config stored, the page shows the missing-key message and requests nothing |

## Left out

- Real timing: the 300ms guard, the 5s autoplay period, the 500ms collection retry and the
  150ms and 50ms lightbox fades. They are events here, and a lightbox prev or next shows
  its new image at once. So the race in which a pending 150ms redraw from prev or next
  overwrites the image of a later `open` or of a second quick prev or next is not modelled.
- The `loaded` fade class, inline styles and the `translateX` string. They are modelled
  only as the booleans and numbers they carry.
- The WhatsApp button, smooth scroll and scroll-reveal animations (app.js:337-415). They
  are presentation only.
- `collectImages` retrying forever while no image is found. Each retry is one
  `RetryFired` event, with no bound on their number.
- Lightbox.Next, Lightbox.Prev, Carousel.NextSlide, Carousel.PrevSlide: require a
  non-empty gallery or slide list. With none, the source computes `% 0` and gets no index.
- Lightbox.UpdateCounter: assumes the counter element exists. Without it the source's
  else branch throws.
- `escapeHtml`, which relies on DOM serialisation, and the avatar URL's
  `encodeURIComponent`. A card keeps the raw strings and records the avatar only as
  "generated from this name".
- `updateSchemaRating` and `addReviewsBadge`, which patch JSON in the DOM and format
  floats.
- ReviewsClient.FetchReviews: a new body with reviews but no top-level `rating` shows the
  cards after one request here. In the source, `displayReviews` runs inside the same `try`
  (google-reviews.js:95, 104-108). `addReviewsBadge` throws on `rating.toFixed(1)`
  (google-reviews.js:277), so the legacy request runs and its screen replaces the cards.
  The model does not track the badge's rating.
- The missing reviews container, which makes `displayReviews` and `showErrorMessage` do
  nothing.
- The outer catch in `init`. It is unreachable, because `fetchReviews` catches every error.
- `Date` parsing, the clock, `Math.ceil` over milliseconds and `toLocaleDateString`. Only
  the bucket of an integer day count is modelled. From 365 days on, the label is the
  abstract `MonthYear`.
- Fractional ratings beyond tenths, and the upstream `rating` and `userRatingCount`
  totals, which feed only the badge and the structured data.
- Every `fetch`, the Google Places API, Express, cors, static serving and the `fs` calls.
  Their results are inputs. A failed write leaves the file unchanged. A request body that
  is a JSON array behaves as an empty object.
- Concurrent POSTs racing on the read-modify-write of the config file.
- `GET /api/status` and the server start-up logging.
- Instantiating the client. google-reviews.js:298-305 leaves `new GoogleReviews()` commented
  out, so the shipped page never runs it. `ReviewsClient.Init` and the `ConfigFlow` lemmas
  describe the client once that line is enabled.
- ReviewsClient.FetchReviewsLegacy: an OK legacy reply with reviews but no `result.rating`
  shows cards here. In the source, `addReviewsBadge` then throws on `toFixed`
  (google-reviews.js:120, 277), and the catch replaces the cards with "Erro ao conectar com
  o Google.". The model does not track the badge's rating.
- Swipe.Classify: touch coordinates are whole pixels here. In the browser `clientX` is a
  floating-point number, so a drag of 50.5px, which counts as a swipe, has no counterpart.
- setup-api-keys.js, a CLI that posts the same body over HTTP.

## Findings

| source | as written | input that shows it | evidently intended | confidence | as-written member | corrected member |
|---|---|---|---|---|---|---|
| google-reviews.js:207 | the empty-star count is `5 - Math.ceil(rating)`, which already counts a fraction below .5 | rating 4.3 renders "★★★★", four glyphs | a fixed row of five glyphs, "★★★★☆" | medium, not executed | `Stars.StarsAsWritten` (shown by `Stars.StarsAsWrittenLength`, `Stars.FourPointThreeHasFourGlyphs`) | `Stars.Stars` and `ReviewCard.CreateCardCorrected` (5 glyphs proved; agreement in `Stars.StarsAgreeWithOriginal`) |
| app.js:154-157 | touchstart sets `startX` but not `currentX`, so touchend compares against the previous gesture's end (initially 0) | first tap at x = 200 on a carousel or the lightbox image, with no touchmove: `diff = 200 > 50` fires next | a tap without movement is no swipe | medium, not executed | `Swipe.TouchStartAsWritten` (shown by `Swipe.TapOnFreshElementSwipes`, `Swipe.GestureOfDragAsWritten`, `Carousel.TapAdvancesFreshCarousel`) | `Swipe.TouchStart` (proved by `Swipe.GestureOfDrag`) |

The rest of the model follows the code as written. `ReviewCard.CreateCard` renders stars
with `Stars.StarsAsWritten`, and both widgets' `Step` track touches with
`Swipe.TouchStartAsWritten`. The corrected members stand beside them, with the intended
property proved.

=== FILE: carousel.dfy ===
/**
 * One `Carousel` instance of app.js as an immutable state with pure step
 * functions. The 300ms transition guard, the 5s autoplay interval and the
 * timer handles become explicit state and explicit events.
 */
module Carousel {
  import opened Common
  import opened Swipe

  /** What `updateCarousel` writes to the DOM: transform, dot classes, button classes. */
  datatype Indicators = Indicators(offset: int, dots: seq<bool>, prevDisabled: bool, nextDisabled: bool)

  datatype Carousel = Carousel(
    index: int,              // currentIndex
    total: nat,              // totalSlides
    transitioning: bool,     // isTransitioning
    autoplay: Option<nat>,   // autoplayInterval (null or a live interval handle)
    liveTimers: set<nat>,    // autoplay intervals that have not been cleared
    nextTimerId: nat,        // handle the next setInterval returns
    view: Indicators,
    touch: Touch)

  /** Indices of the dots that carry the `active` class. */
  function ActiveDots(v: Indicators): set<int> {
    set k | 0 <= k < |v.dots| && v.dots[k]
  }

  function HandleSet(h: Option<nat>): set<nat> {
    if h.Some? then {h.value} else {}
  }

  /** The indicator state for slide `index` of `total`. */
  function Render(index: int, total: nat): (v: Indicators)
    ensures |v.dots| == total
    ensures 0 <= index < total ==> ActiveDots(v) == {index}
    ensures v.prevDisabled <==> index == 0
    ensures v.nextDisabled <==> index == total - 1
  {
    var v := Indicators(-index * 100, seq(total, k => k == index), index == 0, index == total - 1);
    assert 0 <= index < total ==> index in ActiveDots(v);
    v
  }

  /**
   * The invariant every reachable carousel with slides keeps: the index is a
   * slide, the indicators show it, and the only live autoplay interval is the
   * one the handle names.
   */
  ghost predicate Valid(c: Carousel) {
    && 0 < c.total
    && 0 <= c.index < c.total
    && c.view == Render(c.index, c.total)
    && c.liveTimers == HandleSet(c.autoplay)
    && (forall h :: h in c.liveTimers ==> 0 < h < c.nextTimerId)
  }

  /** `updateCarousel`: skipped while guarded; otherwise sets the guard and redraws. */
  function UpdateCarousel(c: Carousel): (r: Carousel)
    ensures r.transitioning
    ensures c.transitioning ==> r == c
    ensures r.index == c.index && r.total == c.total && r.touch == c.touch
    ensures r.autoplay == c.autoplay && r.liveTimers == c.liveTimers && r.nextTimerId == c.nextTimerId
    ensures !c.transitioning && 0 <= c.index < c.total ==> ActiveDots(r.view) == {c.index}
    ensures !c.transitioning ==> (r.view.prevDisabled <==> c.index == 0)
    ensures !c.transitioning ==> (r.view.nextDisabled <==> c.index == c.total - 1)
    ensures !c.transitioning ==> r.view == Render(c.index, c.total)
  {
    if c.transitioning then c
    else c.(transitioning := true, view := Render(c.index, c.total))
  }

  /** `nextSlide`: wraps from the last slide to the first. */
  function NextSlide(c: Carousel): (r: Carousel)
    requires c.total > 0 && 0 <= c.index
    ensures c.transitioning ==> r == c
    ensures !c.transitioning && c.index < c.total - 1 ==> r.index == c.index + 1
    ensures !c.transitioning && c.index == c.total - 1 ==> r.index == 0
    ensures !c.transitioning ==> r.transitioning && r.view == Render(r.index, c.total)
    ensures r.total == c.total && r.autoplay == c.autoplay && r.liveTimers == c.liveTimers
  {
    if c.transitioning then c
    else UpdateCarousel(c.(index := WrapNext(c.index, c.total)))
  }

  /** `prevSlide`: wraps from the first slide to the last. */
  function PrevSlide(c: Carousel): (r: Carousel)
    requires c.total > 0 && 0 <= c.index
    ensures c.transitioning ==> r == c
    ensures !c.transitioning && 0 < c.index <= c.total ==> r.index == c.index - 1
    ensures !c.transitioning && c.index == 0 ==> r.index == c.total - 1
    ensures !c.transitioning ==> r.transitioning && r.view == Render(r.index, c.total)
    ensures r.total == c.total && r.autoplay == c.autoplay && r.liveTimers == c.liveTimers
  {
    if c.transitioning then c
    else UpdateCarousel(c.(index := WrapPrev(c.index, c.total)))
  }

  /** `goToSlide`: no bounds check of its own; a no-op when guarded or already there. */
  function GoToSlide(c: Carousel, i: int): (r: Carousel)
    ensures c.transitioning || i == c.index ==> r == c
    ensures !c.transitioning && i != c.index ==>
              r.index == i && r.transitioning && r.view == Render(i, c.total)
    ensures r.total == c.total && r.autoplay == c.autoplay && r.liveTimers == c.liveTimers
  {
    if c.transitioning || i == c.index then c
    else UpdateCarousel(c.(index := i))
  }

  /** The 300ms timer set by `updateCarousel` fires and releases the guard. */
  function TransitionEnded(c: Carousel): (r: Carousel)
    ensures !r.transitioning
    ensures r.(transitioning := c.transitioning) == c
  {
    c.(transitioning := false)
  }

  /** `stopAutoplay`: clears the interval, if any, and forgets the handle. */
  function StopAutoplay(c: Carousel): (r: Carousel)
    ensures r.autoplay == None
    ensures r.liveTimers == c.liveTimers - HandleSet(c.autoplay)
    ensures r.index == c.index && r.transitioning == c.transitioning && r.view == c.view
  {
    if c.autoplay.Some? then c.(autoplay := None, liveTimers := c.liveTimers - {c.autoplay.value})
    else c
  }

  /** `startAutoplay`: always stops first, then creates one fresh interval. */
  function StartAutoplay(c: Carousel): (r: Carousel)
    ensures r.autoplay.Some? && r.autoplay.value > 0
    ensures r.liveTimers == c.liveTimers - HandleSet(c.autoplay) + {r.autoplay.value}
    ensures (forall h :: h in c.liveTimers ==> h < c.nextTimerId) ==> r.autoplay.value !in c.liveTimers
    ensures r.index == c.index && r.transitioning == c.transitioning && r.view == c.view
  {
    var s := StopAutoplay(c);
    var h := if s.nextTimerId == 0 then 1 else s.nextTimerId;
    s.(autoplay := Some(h), liveTimers := s.liveTimers + {h}, nextTimerId := h + 1)
  }

  /** The constructor and `init`: dots, listeners, autoplay, first redraw. */
  function Init(total: nat): (c: Carousel)
    ensures total > 0 ==> Valid(c)
    ensures c.index == 0 && c.transitioning
    ensures c.autoplay.Some? && c.liveTimers == {c.autoplay.value}
  {
    var created := Carousel(0, total, false, None, {}, 1,
                            Indicators(0, seq(total, k => false), false, false), Fresh);
    UpdateCarousel(StartAutoplay(created))
  }

  /** Everything the page, the user or a timer can do to one carousel. */
  datatype Event =
    | PrevButton | NextButton | DotClick(i: int) | KeyDown(key: string)
    | MouseEnter | MouseLeave
    | TouchStartAt(x: int) | TouchMoveTo(x: int) | TouchEnded
    | IntervalFired(handle: nat) | GuardTimerFired

  /** Dots exist only for slides `0 .. totalSlides-1`, so no other dot can be clicked. */
  predicate Possible(c: Carousel, e: Event) {
    e.DotClick? ==> 0 <= e.i < c.total
  }

  /**
   * Dispatch of one event, following the listeners registered in `init` and
   * `setupTouchEvents`; touchstart is the handler as written.
   */
  function Step(c: Carousel, e: Event): (r: Carousel)
    requires c.total > 0 && 0 <= c.index && Possible(c, e)
    ensures r.total == c.total
    ensures r.index != c.index ==>
              || e.PrevButton? || e.NextButton? || e.DotClick? || e.TouchEnded?
              || (e.KeyDown? && (e.key == "ArrowLeft" || e.key == "ArrowRight"))
              || (e.IntervalFired? && e.handle in c.liveTimers)
    ensures e.MouseEnter? || e.TouchStartAt? ==> r.autoplay.None?
    ensures e.MouseLeave? || (e.TouchEnded? && c.touch.dragging) ==> r.autoplay.Some?
    ensures e.TouchStartAt? ==>
              r.touch.dragging && r.touch.startX == e.x && r.touch.currentX == c.touch.currentX
    ensures e.TouchEnded? ==> !r.touch.dragging
    ensures e.TouchEnded? && !c.touch.dragging ==> r == c
    ensures (|| e.NextButton? || (e.KeyDown? && e.key == "ArrowRight")
             || (e.IntervalFired? && e.handle in c.liveTimers)) ==> r == NextSlide(c)
    ensures e.PrevButton? || (e.KeyDown? && e.key == "ArrowLeft") ==> r == PrevSlide(c)
    ensures e.DotClick? ==> r == GoToSlide(c, e.i)
    ensures e.TouchEnded? && c.touch.dragging ==>
              r.index == match Classify(c.touch.startX, c.touch.currentX)
                         case SwipeNext => NextSlide(c).index
                         case SwipePrev => PrevSlide(c).index
                         case NoGesture => c.index
    ensures e.IntervalFired? && e.handle !in c.liveTimers ==> r == c
  {
    match e
    case PrevButton => PrevSlide(c)
    case NextButton => NextSlide(c)
    case DotClick(i) => GoToSlide(c, i)
    case KeyDown(key) =>
      if key == "ArrowLeft" then PrevSlide(c)
      else if key == "ArrowRight" then NextSlide(c)
      else c
    case MouseEnter => StopAutoplay(c)
    case MouseLeave => StartAutoplay(c)
    case TouchStartAt(x) => StopAutoplay(c.(touch := TouchStartAsWritten(c.touch, x)))
    case TouchMoveTo(x) => c.(touch := TouchMove(c.touch, x))
    case TouchEnded =>
      var (t, release) := TouchEnd(c.touch);
      var c1 := c.(touch := t);
      if release.Ignored? then c1
      else
        var c2 := match release.gesture
                  case SwipeNext => NextSlide(c1)
                  case SwipePrev => PrevSlide(c1)
                  case NoGesture => c1;
        StartAutoplay(c2)
    case IntervalFired(h) => if h in c.liveTimers then NextSlide(c) else c
    case GuardTimerFired => TransitionEnded(c)
  }

  /** Every event keeps a valid carousel valid. */
  lemma StepKeepsValid(c: Carousel, e: Event)
    requires Valid(c) && Possible(c, e)
    ensures Valid(Step(c, e))
  {
  }

  /**
   * The touchstart handler keeps the previous `currentX`: on a carousel whose
   * tracker is still fresh, a plain tap at x = 200 advances the slide.
   */
  lemma TapAdvancesFreshCarousel(c: Carousel)
    requires Valid(c) && !c.transitioning && c.touch == Fresh && c.total > 1 && c.index == 0
    ensures Step(Step(c, TouchStartAt(200)), TouchEnded).index == 1
  {
  }

  /** While a transition is in flight, no event except the guard timer moves the index. */
  lemma GuardBlocksIndexChange(c: Carousel, e: Event)
    requires c.total > 0 && 0 <= c.index && Possible(c, e)
    requires c.transitioning && !e.GuardTimerFired?
    ensures Step(c, e).index == c.index
  {
  }

  /** At most one autoplay interval is ever live. */
  lemma AtMostOneAutoplayTimer(c: Carousel)
    requires Valid(c)
    ensures |c.liveTimers| <= 1
    ensures c.autoplay.None? <==> c.liveTimers == {}
  {
  }

  /** "prev" undoes "next" once the guard has been released in between. */
  lemma PrevUndoesNext(c: Carousel)
    requires Valid(c) && !c.transitioning
    ensures PrevSlide(TransitionEnded(NextSlide(c))).index == c.index
  {
  }

  /** One autoplay tick followed by the release of the guard. */
  function Advance(c: Carousel): Carousel
    requires c.total > 0 && 0 <= c.index
  {
    TransitionEnded(NextSlide(c))
  }

  function AdvanceTimes(c: Carousel, k: nat): Carousel
    requires Valid(c)
    decreases k
  {
    if k == 0 then c
    else
      AdvanceKeepsValid(c);
      AdvanceTimes(Advance(c), k - 1)
  }

  lemma AdvanceKeepsValid(c: Carousel)
    requires Valid(c)
    ensures Valid(Advance(c)) && !Advance(c).transitioning
  {
  }

  /**
   * k guarded-and-released advances, k at most the slide count, move the index
   * k places round the circle.
   */
  lemma {:induction false} AdvanceTimesRotates(c: Carousel, k: nat)
    requires Valid(c) && !c.transitioning && k <= c.total
    ensures Valid(AdvanceTimes(c, k))
    ensures c.index + k < c.total ==> AdvanceTimes(c, k).index == c.index + k
    ensures c.index + k >= c.total ==> AdvanceTimes(c, k).index == c.index + k - c.total
    decreases k
  {
    if k > 0 {
      AdvanceKeepsValid(c);
      AdvanceTimesRotates(Advance(c), k - 1);
    }
  }

  /** n advances bring a carousel of n slides back to where it started. */
  lemma FullCycleReturns(c: Carousel)
    requires Valid(c) && !c.transitioning
    ensures AdvanceTimes(c, c.total).index == c.index
  {
    AdvanceTimesRotates(c, c.total);
  }

  /**
   * `goToSlide` trusts its caller: an index past the end is taken as is, which
   * leaves the slide range. Only dot clicks call it, and they never do this.
   */
  lemma GoToSlideHasNoBoundsCheck(c: Carousel)
    requires Valid(c) && !c.transitioning
    ensures GoToSlide(c, c.total).index == c.total
  {
  }
}

=== FILE: common.dfy ===
/** Small shared vocabulary: an optional value and two integer helpers. */
module Common {

  /** A value that may be absent, as a JavaScript property that may be `undefined`. */
  datatype Option<+T> = None | Some(value: T)

  function Min(a: int, b: int): int {
    if a <= b then a else b
  }

  function Abs(x: int): nat {
    if x < 0 then -x else x
  }

  /**
   * `(i + 1) % n` as JavaScript evaluates it: for a non-negative `i` its `%`
   * agrees with Dafny's. Steps forward round a circle of `n` positions.
   */
  function WrapNext(i: int, n: int): (j: int)
    requires 0 < n && 0 <= i
    ensures i < n - 1 ==> j == i + 1
    ensures i == n - 1 ==> j == 0
  {
    (i + 1) % n
  }

  /** `(i - 1 + n) % n`: steps backward round a circle of `n` positions. */
  function WrapPrev(i: int, n: int): (j: int)
    requires 0 < n && 0 <= i
    ensures 0 < i <= n ==> j == i - 1
    ensures i == 0 ==> j == n - 1
  {
    (i - 1 + n) % n
  }
}

=== FILE: config_flow.dfy ===
/**
 * The config round trip across server.js and google-reviews.js: what the
 * admin endpoint stores, the read endpoint hands to the page, and the page's
 * `init` then does with it.
 */
module ConfigFlow {
  import opened Common
  import opened Json
  import ConfigServer
  import ReviewsClient

  /** The JSON body the page receives for a `GET /api/config` reply. */
  function ReplyToClient(r: ConfigServer.GetReply): (c: ReviewsClient.ConfigReply)
    ensures c.BackendReply?
    ensures Truthy(c.success) <==> r.GetOk?
  {
    match r
    case GetOk(apiKey, placeId) => ReviewsClient.BackendReply(Some(JBool(true)), Some(apiKey), Some(placeId))
    case GetFailed => ReviewsClient.BackendReply(Some(JBool(false)), None, None)
  }

  /**
   * After a successful update over a stored object (or over an unreadable
   * file), reading the config returns exactly the key and Place ID posted.
   */
  lemma PostThenGet(token: Option<string>, env: Option<string>, body: map<string, Json>,
                    f: ConfigServer.StoredFile, now: string, writeSucceeds: bool)
    requires ConfigServer.LoadConfig(f).JObj?
    requires ConfigServer.PostConfig(token, env, body, f, now, writeSucceeds).response.status == 200
    ensures ConfigServer.GetConfig(ConfigServer.PostConfig(token, env, body, f, now, writeSucceeds).file)
            == ConfigServer.GetOk(body["apiKey"], body["placeId"])
  {
  }

  /**
   * Once an update has succeeded, the page's `init` gets past both
   * configuration checks and makes an upstream request.
   */
  lemma PostedConfigReachesFetch(token: Option<string>, env: Option<string>, body: map<string, Json>,
                                 f: ConfigServer.StoredFile, now: string, writeSucceeds: bool,
                                 newReply: ReviewsClient.NewReply, legacyReply: ReviewsClient.LegacyReply)
    requires ConfigServer.LoadConfig(f).JObj?
    requires ConfigServer.PostConfig(token, env, body, f, now, writeSucceeds).response.status == 200
    ensures var f' := ConfigServer.PostConfig(token, env, body, f, now, writeSucceeds).file;
            var cfg := ReviewsClient.LoadConfigFromBackend(ReplyToClient(ConfigServer.GetConfig(f')));
            ReviewsClient.Init(cfg, newReply, legacyReply).requests > 0
  {
  }

  /** With nothing stored yet, the page shows the missing-key message and requests nothing. */
  lemma FreshServerShowsMissingKey(newReply: ReviewsClient.NewReply, legacyReply: ReviewsClient.LegacyReply)
    ensures var cfg := ReviewsClient.LoadConfigFromBackend(
                         ReplyToClient(ConfigServer.GetConfig(ConfigServer.Unreadable)));
            ReviewsClient.Init(cfg, newReply, legacyReply)
              == ReviewsClient.Outcome(ReviewsClient.ErrorMessage(ReviewsClient.NoApiKeyMessage), 0)
  {
  }
}

=== FILE: config_server.dfy ===
/**
 * The config endpoints of server.js as pure handlers over the stored config
 * file. Reading the file, the environment, the clock and whether the write
 * succeeds are all inputs; the handlers return the response and the file as it
 * stands afterwards.
 */
module ConfigServer {
  import opened Common
  import opened Json

  const DefaultAuthToken := "change-this-secret-token"
  const ApiKeyField := "googleApiKey"
  const PlaceIdField := "googlePlaceId"
  const LastUpdatedField := "lastUpdated"

  /** `config/api-keys.json`: unreadable (missing, unreadable, or not JSON), or a parsed value. */
  datatype StoredFile = Unreadable | Parsed(value: Json)

  /** `loadConfig`: the parsed file, or the empty default when reading or parsing fails. */
  function LoadConfig(f: StoredFile): (cfg: Json)
    ensures f.Parsed? ==> cfg == f.value
    ensures f.Unreadable? ==> GetProp(cfg, ApiKeyField) == Value(Some(JStr("")))
    ensures f.Unreadable? ==> GetProp(cfg, PlaceIdField) == Value(Some(JStr("")))
    ensures f.Unreadable? ==> GetProp(cfg, LastUpdatedField) == Value(Some(JNull))
    ensures f.Unreadable? ==> cfg.JObj? && |cfg.fields| == 3
  {
    match f
    case Unreadable =>
      var m := map[ApiKeyField := JStr(""), PlaceIdField := JStr(""), LastUpdatedField := JNull];
      assert m.Keys == {ApiKeyField, PlaceIdField, LastUpdatedField};
      JObj(m)
    case Parsed(v) => v
  }

  /** The reply of `GET /api/config`. */
  datatype GetReply = GetOk(apiKey: Json, placeId: Json) | GetFailed

  /**
   * `GET /api/config`: `success: true` with the stored key and Place ID, each
   * `''` when absent or falsy; a 500 only when the stored value is `null`.
   */
  function GetConfig(f: StoredFile): (r: GetReply)
    ensures r.GetFailed? <==> LoadConfig(f) == JNull
    ensures r.GetOk? ==> r.apiKey == OrElse(GetProp(LoadConfig(f), ApiKeyField).v, JStr(""))
    ensures r.GetOk? ==> r.placeId == OrElse(GetProp(LoadConfig(f), PlaceIdField).v, JStr(""))
  {
    var cfg := LoadConfig(f);
    match GetProp(cfg, ApiKeyField)
    case ReadThrows => GetFailed
    case Value(key) =>
      GetOk(OrElse(key, JStr("")), OrElse(GetProp(cfg, PlaceIdField).v, JStr("")))
  }

  /** `process.env.AUTH_TOKEN || 'change-this-secret-token'`. */
  function ExpectedToken(env: Option<string>): (t: string)
    ensures env.Some? && env.value != "" ==> t == env.value
    ensures env.None? || env.value == "" ==> t == DefaultAuthToken
  {
    if env.Some? && env.value != "" then env.value else DefaultAuthToken
  }

  datatype Response = Response(status: nat, success: bool, message: string)

  const Unauthorized := Response(401, false, "Não autorizado")
  const MissingFields := Response(400, false, "apiKey e placeId são obrigatórios")
  const Saved := Response(200, true, "Configuração salva com sucesso")
  const SaveFailed := Response(500, false, "Erro ao salvar configuração")
  const UpdateFailed := Response(500, false, "Erro ao atualizar configuração")

  datatype PostOutcome = PostOutcome(response: Response, file: StoredFile)

  /**
   * `saveConfig`: stamps `lastUpdated` and writes. A failed write keeps the file; a
   * non-object config is written back as it was, since the stamp is lost on it.
   */
  function SaveConfig(cfg: Json, f: StoredFile, now: string, writeSucceeds: bool): (r: (bool, StoredFile))
    requires cfg != JNull
    ensures r.0 == writeSucceeds
    ensures !writeSucceeds ==> r.1 == f
    ensures writeSucceeds && cfg.JObj? ==>
              r.1 == Parsed(JObj(cfg.fields[LastUpdatedField := JStr(now)]))
    ensures writeSucceeds && !cfg.JObj? ==> r.1 == Parsed(cfg)
  {
    var stamped := Assign(cfg, LastUpdatedField, JStr(now));
    if writeSucceeds then (true, Parsed(stamped)) else (false, f)
  }

  /**
   * `POST /api/config`: the token is checked before the body is looked at, the
   * two fields are validated before the file is read, and only then is the
   * stored config loaded, given the new key and Place ID, and saved.
   */
  function PostConfig(token: Option<string>, env: Option<string>, body: map<string, Json>,
                      f: StoredFile, now: string, writeSucceeds: bool): (r: PostOutcome)
    ensures r.response.status == 401 <==> token != Some(ExpectedToken(env))
    ensures r.response.status == 400 <==>
              token == Some(ExpectedToken(env))
              && (!Truthy(Lookup(body, "apiKey")) || !Truthy(Lookup(body, "placeId")))
    ensures r.response.status == 200 <==>
              token == Some(ExpectedToken(env))
              && Truthy(Lookup(body, "apiKey")) && Truthy(Lookup(body, "placeId"))
              && LoadConfig(f) != JNull && writeSucceeds
    ensures r.response.success <==> r.response.status == 200
    ensures r.response.status != 200 ==> r.file == f
    ensures r.response.status in {200, 400, 401, 500}
  {
    if token != Some(ExpectedToken(env)) then PostOutcome(Unauthorized, f)
    else
      var apiKey := Lookup(body, "apiKey");
      var placeId := Lookup(body, "placeId");
      if !Truthy(apiKey) || !Truthy(placeId) then PostOutcome(MissingFields, f)
      else
        var cfg := LoadConfig(f);
        if cfg == JNull then PostOutcome(UpdateFailed, f)
        else
          var updated := Assign(Assign(cfg, ApiKeyField, apiKey.value), PlaceIdField, placeId.value);
          var (saved, f') := SaveConfig(updated, f, now, writeSucceeds);
          if saved then PostOutcome(Saved, f') else PostOutcome(SaveFailed, f)
  }

  /**
   * A successful update over a stored object replaces the key and Place ID,
   * stamps `lastUpdated`, and keeps every other stored field as it was.
   */
  lemma PostKeepsOtherFields(token: Option<string>, env: Option<string>, body: map<string, Json>,
                             f: StoredFile, now: string, writeSucceeds: bool, key: string)
    requires LoadConfig(f).JObj?
    requires PostConfig(token, env, body, f, now, writeSucceeds).response.status == 200
    ensures var f' := PostConfig(token, env, body, f, now, writeSucceeds).file;
            var m := LoadConfig(f).fields;
            && f'.Parsed? && f'.value.JObj?
            && f'.value.fields[ApiKeyField] == body["apiKey"]
            && f'.value.fields[PlaceIdField] == body["placeId"]
            && f'.value.fields[LastUpdatedField] == JStr(now)
            && (key !in {ApiKeyField, PlaceIdField, LastUpdatedField} ==>
                  (key in f'.value.fields <==> key in m)
                  && (key in m ==> f'.value.fields[key] == m[key]))
  {
  }

  /**
   * A config file holding a bare value that is neither an object nor `null`
   * takes no fields: the update reports success yet the file keeps its value.
   */
  lemma PostOverNonObjectIsLost(env: Option<string>, now: string)
    ensures var body := map["apiKey" := JStr("k"), "placeId" := JStr("p")];
            var r := PostConfig(Some(ExpectedToken(env)), env, body, Parsed(JNum(5)), now, true);
            r.response == Saved && r.file == Parsed(JNum(5))
  {
  }
}

=== FILE: decimal.dfy ===
/**
 * Decimal rendering of natural numbers, as JavaScript template literals print
 * small non-negative integers, together with the parser that inverts it.
 */
module Decimal {

  predicate IsDigit(c: char) {
    '0' <= c <= '9'
  }

  predicate AllDigits(s: string) {
    forall i :: 0 <= i < |s| ==> IsDigit(s[i])
  }

  function DigitValue(c: char): nat
    requires IsDigit(c)
  {
    c as int - '0' as int
  }

  function DigitChar(d: nat): (c: char)
    requires d < 10
    ensures IsDigit(c) && DigitValue(c) == d
  {
    ('0' as int + d) as char
  }

  /** The decimal digits of `n`, most significant first, without leading zeros. */
  function NatToString(n: nat): (s: string)
    ensures |s| > 0 && AllDigits(s)
    ensures s[0] == '0' ==> n == 0
    decreases n
  {
    if n < 10 then [DigitChar(n)] else NatToString(n / 10) + [DigitChar(n % 10)]
  }

  /** The value of a string of decimal digits. */
  function ParseDigits(s: string): nat
    requires AllDigits(s)
  {
    if |s| == 0 then 0 else 10 * ParseDigits(s[..|s| - 1]) + DigitValue(s[|s| - 1])
  }

  /** Parsing the rendering of a number gives the number back. */
  lemma {:induction false} ParseNatToString(n: nat)
    ensures ParseDigits(NatToString(n)) == n
    decreases n
  {
    var s := NatToString(n);
    if n >= 10 {
      ParseNatToString(n / 10);
      assert s[..|s| - 1] == NatToString(n / 10);
    }
  }

  /** Distinct numbers render as distinct strings. */
  lemma NatToStringInjective(a: nat, b: nat)
    ensures NatToString(a) == NatToString(b) ==> a == b
  {
    ParseNatToString(a);
    ParseNatToString(b);
  }

  /**
   * A digit string followed by a text that starts with a non-digit can be split
   * in one way only: the digits end where the first non-digit begins.
   */
  lemma DigitsThenTextUnique(x: string, r1: string, y: string, r2: string)
    requires AllDigits(x) && AllDigits(y)
    requires |r1| > 0 && !IsDigit(r1[0])
    requires |r2| > 0 && !IsDigit(r2[0])
    requires x + r1 == y + r2
    ensures x == y && r1 == r2
  {
    assert x == (x + r1)[..|x|];
    assert y == (y + r2)[..|y|];
    assert r1 == (x + r1)[|x|..];
    assert r2 == (y + r2)[|y|..];
  }
}

=== FILE: json.dfy ===
/**
 * JSON values as the server's config file and the HTTP bodies carry them, with
 * the three pieces of JavaScript semantics the code relies on: truthiness
 * (`a || b`, `!a`), property reads that throw on `null`, and property writes
 * that throw on `null` and are silently lost on any non-object (sloppy mode,
 * and `JSON.stringify` drops named properties of arrays).
 */
module Json {
  import opened Common

  datatype Json =
    | JNull
    | JBool(b: bool)
    | JNum(n: int)
    | JStr(s: string)
    | JArr(items: seq<Json>)
    | JObj(fields: map<string, Json>)

  /** JavaScript truthiness of a possibly `undefined` value. */
  predicate Truthy(v: Option<Json>) {
    match v
    case None => false
    case Some(JNull) => false
    case Some(JBool(b)) => b
    case Some(JNum(n)) => n != 0
    case Some(JStr(s)) => s != ""
    case Some(JArr(_)) => true
    case Some(JObj(_)) => true
  }

  /** `v || fallback`. */
  function OrElse(v: Option<Json>, fallback: Json): (r: Json)
    ensures Truthy(v) ==> Some(r) == v
    ensures !Truthy(v) ==> r == fallback
  {
    if Truthy(v) then v.value else fallback
  }

  /** `obj.key` on a plain object: `undefined` when the key is absent. */
  function Lookup(m: map<string, Json>, key: string): (r: Option<Json>)
    ensures r.Some? <==> key in m
    ensures key in m ==> r.value == m[key]
  {
    if key in m then Some(m[key]) else None
  }

  /** The outcome of `v.key`: a value (possibly `undefined`) or a TypeError. */
  datatype Read = Value(v: Option<Json>) | ReadThrows

  function GetProp(v: Json, key: string): (r: Read)
    ensures r.ReadThrows? <==> v == JNull
    ensures v.JObj? ==> r == Value(Lookup(v.fields, key))
  {
    match v
    case JNull => ReadThrows
    case JObj(m) => Value(Lookup(m, key))
    case _ => Value(None)
  }

  /**
   * `v.key = x` followed by serialisation: stored on an object, lost on any
   * other non-null value. Writing to `null` throws and is ruled out here.
   */
  function Assign(v: Json, key: string, x: Json): (r: Json)
    requires v != JNull
    ensures r != JNull
    ensures v.JObj? ==> r == JObj(v.fields[key := x])
    ensures !v.JObj? ==> r == v
  {
    if v.JObj? then JObj(v.fields[key := x]) else v
  }
}

=== FILE: lightbox.dfy ===
/**
 * The page-wide `Lightbox` of app.js: the gallery collected from the carousel
 * slide images, the open / close / prev / next state machine, the counter and
 * button visibility, and keyboard, click and swipe dispatch. The 150ms and
 * 50ms fade timers are collapsed: a step shows its new image at once.
 */
module Lightbox {
  import opened Common
  import opened Decimal
  import opened Swipe

  /** A `.carousel-slide img` element: its `src` and its optional `data-src`. */
  datatype SlideImage = SlideImage(src: string, dataSrc: Option<string>)

  /** `img.src || img.getAttribute('data-src')`, with a missing attribute read as "". */
  function SourceOf(img: SlideImage): (s: string)
    ensures img.src != "" ==> s == img.src
    ensures img.src == "" && img.dataSrc.Some? ==> s == img.dataSrc.value
    ensures img.src == "" && img.dataSrc.None? ==> s == ""
  {
    if img.src != "" then img.src
    else if img.dataSrc.Some? then img.dataSrc.value
    else ""
  }

  function Sources(imgs: seq<SlideImage>): (r: seq<string>)
    ensures |r| == |imgs|
    ensures forall k :: 0 <= k < |imgs| ==> r[k] == SourceOf(imgs[k])
  {
    seq(|imgs|, k requires 0 <= k < |imgs| => SourceOf(imgs[k]))
  }

  predicate Distinct(s: seq<string>) {
    forall i, j :: 0 <= i < j < |s| ==> s[i] != s[j]
  }

  /** One iteration of the `forEach` in `collectImages`. */
  function AddImage(images: seq<string>, s: string): (r: seq<string>)
    ensures s != "" && s !in images ==> r == images + [s]
    ensures s == "" || s in images ==> r == images
  {
    if s != "" && s !in images then images + [s] else images
  }

  lemma AddImageKeepsDistinct(images: seq<string>, s: string)
    requires Distinct(images)
    ensures Distinct(AddImage(images, s))
  {
  }

  lemma PrefixMembers(a: seq<string>, b: seq<string>)
    requires a <= b
    ensures forall x :: x in a ==> x in b
  {
  }

  /** `collectImages`: appends each new non-empty source, in document order. */
  function Collect(images: seq<string>, srcs: seq<string>): (r: seq<string>)
    ensures images <= r
    ensures Distinct(images) ==> Distinct(r)
    ensures forall s :: s in srcs && s != "" ==> s in r
    ensures forall s :: s in r ==> s in images || (s != "" && s in srcs)
    decreases |srcs|
  {
    if |srcs| == 0 then images
    else
      var next := AddImage(images, srcs[0]);
      var r := Collect(next, srcs[1..]);
      assert srcs == [srcs[0]] + srcs[1..];
      PrefixMembers(next, r);
      if Distinct(images) then AddImageKeepsDistinct(images, srcs[0]); r else r
  }

  /**
   * Reference definition of the gallery: each non-empty source at its first
   * occurrence, in the order the sources come.
   */
  function FirstOccurrences(srcs: seq<string>): seq<string>
    decreases |srcs|
  {
    if |srcs| == 0 then []
    else
      var init := srcs[..|srcs| - 1];
      var last := srcs[|srcs| - 1];
      FirstOccurrences(init) + (if last != "" && last !in init then [last] else [])
  }

  lemma {:induction false} FirstOccurrencesMembers(srcs: seq<string>, s: string)
    ensures s in FirstOccurrences(srcs) <==> s in srcs && s != ""
    decreases |srcs|
  {
    if |srcs| > 0 {
      var init := srcs[..|srcs| - 1];
      FirstOccurrencesMembers(init, s);
      assert srcs == init + [srcs[|srcs| - 1]];
    }
  }

  lemma {:induction false} CollectSnoc(images: seq<string>, srcs: seq<string>, s: string)
    ensures Collect(images, srcs + [s]) == AddImage(Collect(images, srcs), s)
    decreases |srcs|
  {
    if |srcs| > 0 {
      assert (srcs + [s])[0] == srcs[0];
      assert (srcs + [s])[1..] == srcs[1..] + [s];
      CollectSnoc(AddImage(images, srcs[0]), srcs[1..], s);
    }
  }

  /** Collecting into an empty gallery yields exactly the first occurrences. */
  lemma {:induction false} CollectIsFirstOccurrences(srcs: seq<string>)
    ensures Collect([], srcs) == FirstOccurrences(srcs)
    decreases |srcs|
  {
    if |srcs| > 0 {
      var init := srcs[..|srcs| - 1];
      var last := srcs[|srcs| - 1];
      assert srcs == init + [last];
      CollectIsFirstOccurrences(init);
      CollectSnoc([], init, last);
      FirstOccurrencesMembers(init, last);
    }
  }

  /** The `lightboxCounter` element: its text and whether it is displayed. */
  datatype Counter = Counter(text: string, visible: bool)

  datatype Lightbox = Lightbox(
    images: seq<string>,
    index: int,            // currentIndex
    active: bool,          // the overlay carries the `active` class
    shownSrc: string,      // lightboxImg.src
    alt: string,           // lightboxImg.alt
    counter: Counter,
    buttonsVisible: bool,  // prev and next buttons displayed
    scrollLocked: bool,    // document.body.style.overflow == 'hidden'
    touch: Touch)

  /** "i / n", the counter text for the image at one-based position `i`. */
  function CounterText(i: nat, n: nat): string {
    NatToString(i) + " / " + NatToString(n)
  }

  /** The counter text determines both of its numbers. */
  lemma CounterTextInjective(i: nat, n: nat, i': nat, n': nat)
    requires CounterText(i, n) == CounterText(i', n')
    ensures i == i' && n == n'
  {
    var a, b := NatToString(i), NatToString(n);
    var a', b' := NatToString(i'), NatToString(n');
    assert CounterText(i, n) == a + (" / " + b);
    assert CounterText(i', n') == a' + (" / " + b');
    DigitsThenTextUnique(a, " / " + b, a', " / " + b');
    assert b == (" / " + b)[3..];
    assert b' == (" / " + b')[3..];
    NatToStringInjective(i, i');
    NatToStringInjective(n, n');
  }

  function AltText(index: nat, n: nat): string {
    "Imagem " + NatToString(index + 1) + " de " + NatToString(n)
  }

  /** `updateCounter`: shown with "i+1 / n" only when there is more than one image. */
  function UpdateCounter(c: Counter, index: nat, n: nat): (r: Counter)
    ensures r.visible <==> n > 1
    ensures n > 1 ==> r.text == CounterText(index + 1, n)
    ensures n <= 1 ==> r.text == c.text
  {
    if n > 1 then Counter(CounterText(index + 1, n), true) else c.(visible := false)
  }

  /** The image element, counter and buttons all show image `index`. */
  ghost predicate Displayed(lb: Lightbox) {
    && 0 <= lb.index < |lb.images|
    && lb.shownSrc == lb.images[lb.index]
    && lb.alt == AltText(lb.index, |lb.images|)
    && (lb.counter.visible <==> |lb.images| > 1)
    && (|lb.images| > 1 ==> lb.counter.text == CounterText(lb.index + 1, |lb.images|))
    && (lb.buttonsVisible <==> |lb.images| > 1)
  }

  /** Moves to image `i` and refreshes image, counter and buttons. */
  function Show(lb: Lightbox, i: int): (r: Lightbox)
    requires 0 <= i < |lb.images|
    ensures Displayed(r) && r.index == i
    ensures r.images == lb.images && r.active == lb.active && r.scrollLocked == lb.scrollLocked
    ensures r.touch == lb.touch
  {
    var n := |lb.images|;
    lb.(index := i, shownSrc := lb.images[i], alt := AltText(i, n),
        counter := UpdateCounter(lb.counter, i, n), buttonsVisible := n > 1)
  }

  /**
   * The invariant of a reachable lightbox: a duplicate-free gallery, an index
   * inside it (0 while it is empty), and, while open, a display of that image
   * with the page scroll locked.
   */
  ghost predicate Valid(lb: Lightbox) {
    && Distinct(lb.images)
    && 0 <= lb.index
    && (|lb.images| == 0 ==> lb.index == 0)
    && (|lb.images| > 0 ==> lb.index < |lb.images|)
    && (lb.active ==> Displayed(lb))
    && lb.scrollLocked == lb.active
  }

  /** The constructor: collect the gallery, closed, at index 0. */
  function Init(page: seq<SlideImage>): (lb: Lightbox)
    ensures Valid(lb) && !lb.active && lb.index == 0
    ensures lb.images == FirstOccurrences(Sources(page))
  {
    CollectIsFirstOccurrences(Sources(page));
    Lightbox(Collect([], Sources(page)), 0, false, "", "", Counter("", false), false, false, Fresh)
  }

  /** The 500ms retry of `collectImages`, scheduled only while the gallery is empty. */
  function CollectRetry(lb: Lightbox, page: seq<SlideImage>): (r: Lightbox)
    ensures |lb.images| > 0 ==> r == lb
    ensures |lb.images| == 0 ==> r == lb.(images := FirstOccurrences(Sources(page)))
  {
    CollectIsFirstOccurrences(Sources(page));
    if |lb.images| == 0 then lb.(images := Collect(lb.images, Sources(page))) else lb
  }

  /** `open`: silently ignores an index outside the gallery. */
  function Open(lb: Lightbox, i: int): (r: Lightbox)
    ensures i < 0 || i >= |lb.images| ==> r == lb
    ensures 0 <= i < |lb.images| ==>
              r.active && r.scrollLocked && r.index == i && Displayed(r) && r.images == lb.images
  {
    if i < 0 || i >= |lb.images| then lb
    else Show(lb.(active := true, scrollLocked := true), i)
  }

  /** `close`: hides the overlay and restores page scroll. */
  function Close(lb: Lightbox): (r: Lightbox)
    ensures !r.active && !r.scrollLocked
    ensures r.images == lb.images && r.index == lb.index
  {
    lb.(active := false, scrollLocked := false)
  }

  /** `next`: wraps from the last image to the first. */
  function Next(lb: Lightbox): (r: Lightbox)
    requires |lb.images| > 0 && 0 <= lb.index
    ensures lb.index < |lb.images| - 1 ==> r.index == lb.index + 1
    ensures lb.index == |lb.images| - 1 ==> r.index == 0
    ensures Displayed(r) && r.images == lb.images && r.active == lb.active
    ensures r.scrollLocked == lb.scrollLocked
  {
    Show(lb, WrapNext(lb.index, |lb.images|))
  }

  /** `prev`: wraps from the first image to the last. */
  function Prev(lb: Lightbox): (r: Lightbox)
    requires |lb.images| > 0 && 0 <= lb.index
    ensures 0 < lb.index <= |lb.images| ==> r.index == lb.index - 1
    ensures lb.index == 0 ==> r.index == |lb.images| - 1
    ensures Displayed(r) && r.images == lb.images && r.active == lb.active
    ensures r.scrollLocked == lb.scrollLocked
  {
    Show(lb, WrapPrev(lb.index, |lb.images|))
  }

  /** The document `keydown` listener: acts only while the overlay is open. */
  function KeyDown(lb: Lightbox, key: string): (r: Lightbox)
    requires Valid(lb)
    ensures !lb.active ==> r == lb
    ensures lb.active && key == "Escape" ==> !r.active && r.index == lb.index
    ensures lb.active && key == "ArrowLeft" ==> r == Prev(lb)
    ensures lb.active && key == "ArrowRight" ==> r == Next(lb)
    ensures key !in {"Escape", "ArrowLeft", "ArrowRight"} ==> r == lb
  {
    if !lb.active then lb
    else if key == "Escape" then Close(lb)
    else if key == "ArrowLeft" then Prev(lb)
    else if key == "ArrowRight" then Next(lb)
    else lb
  }

  /** `images.findIndex(img => img === src)`: the first position holding `src`. */
  function IndexOf(images: seq<string>, src: string): (r: Option<nat>)
    ensures r.None? <==> src !in images
    ensures r.Some? ==> r.value < |images| && images[r.value] == src && src !in images[..r.value]
    decreases |images|
  {
    if |images| == 0 then None
    else if images[0] == src then Some(0)
    else match IndexOf(images[1..], src)
      case None => None
      case Some(k) =>
        assert images[..k + 1] == [images[0]] + images[1..][..k];
        Some(k + 1)
  }

  /** A click on a carousel slide image opens the lightbox at that image, if collected. */
  function ImageClick(lb: Lightbox, src: string): (r: Lightbox)
    ensures src !in lb.images ==> r == lb
    ensures src in lb.images ==> r.active && r.shownSrc == src
  {
    match IndexOf(lb.images, src)
    case None => lb
    case Some(k) => Open(lb, k)
  }

  /** In a duplicate-free gallery, clicking the k-th image opens the lightbox at k. */
  lemma ClickOpensClickedImage(lb: Lightbox, k: int)
    requires Valid(lb) && 0 <= k < |lb.images|
    ensures ImageClick(lb, lb.images[k]).active
    ensures ImageClick(lb, lb.images[k]).index == k
  {
  }

  datatype Event =
    | CloseButton | PrevButton | NextButton
    | OverlayClick(onBackdrop: bool)   // click on the overlay; true when its target is the backdrop itself
    | KeyPressed(key: string)
    | SlideImageClick(src: string)
    | TouchStartAt(x: int) | TouchMoveTo(x: int) | TouchEnded
    | RetryFired(page: seq<SlideImage>)

  /** A touchend that ends a drag beyond the threshold, and so reaches `next` or `prev`. */
  predicate Swipes(lb: Lightbox, e: Event) {
    e.TouchEnded? && lb.touch.dragging && Classify(lb.touch.startX, lb.touch.currentX) != NoGesture
  }

  /**
   * Navigation needs a non-empty gallery: with none, `% 0` gives no index at
   * all. A touchend that is no swipe never navigates, so it is always possible.
   */
  predicate Possible(lb: Lightbox, e: Event) {
    && ((e.PrevButton? || e.NextButton?) ==> |lb.images| > 0)
    && (Swipes(lb, e) ==> |lb.images| > 0)
  }

  /**
   * Dispatch of one event, following the listeners registered in `init` and
   * `setupTouchEvents`; touchstart is the handler as written.
   */
  function Step(lb: Lightbox, e: Event): (r: Lightbox)
    requires Valid(lb) && Possible(lb, e)
    ensures !e.RetryFired? ==> r.images == lb.images
    ensures e.CloseButton? || (e.OverlayClick? && e.onBackdrop) ==> !r.active && r.index == lb.index
    ensures e.OverlayClick? && !e.onBackdrop ==> r == lb
    ensures e.KeyPressed? && !lb.active ==> r == lb
    ensures e.SlideImageClick? && e.src !in lb.images ==> r == lb
    ensures e.SlideImageClick? && e.src in lb.images ==> r.active && r.shownSrc == e.src
    ensures e.PrevButton? || e.NextButton? ==> (r.index != lb.index <==> |lb.images| > 1)
    ensures e.TouchStartAt? ==>
              && r.touch.dragging && r.touch.startX == e.x && r.touch.currentX == lb.touch.currentX
              && r.index == lb.index && r.active == lb.active
    ensures e.TouchEnded? ==> !r.touch.dragging
    ensures e.TouchEnded? && !lb.touch.dragging ==> r == lb
    ensures e.NextButton? ==> r == Next(lb)
    ensures e.PrevButton? ==> r == Prev(lb)
    ensures e.TouchEnded? && lb.touch.dragging ==>
              r.index == match Classify(lb.touch.startX, lb.touch.currentX)
                         case SwipeNext => Next(lb).index
                         case SwipePrev => Prev(lb).index
                         case NoGesture => lb.index
  {
    match e
    case CloseButton => Close(lb)
    case PrevButton => Prev(lb)
    case NextButton => Next(lb)
    case OverlayClick(onBackdrop) => if onBackdrop then Close(lb) else lb
    case KeyPressed(key) => KeyDown(lb, key)
    case SlideImageClick(src) => ImageClick(lb, src)
    case TouchStartAt(x) => lb.(touch := TouchStartAsWritten(lb.touch, x))
    case TouchMoveTo(x) => lb.(touch := TouchMove(lb.touch, x))
    case TouchEnded =>
      var (t, release) := TouchEnd(lb.touch);
      var lb1 := lb.(touch := t);
      if release == Ended(SwipeNext) then Next(lb1)
      else if release == Ended(SwipePrev) then Prev(lb1)
      else lb1
    case RetryFired(page) => CollectRetry(lb, page)
  }

  /** Every event keeps a valid lightbox valid. */
  lemma StepKeepsValid(lb: Lightbox, e: Event)
    requires Valid(lb) && Possible(lb, e)
    ensures Valid(Step(lb, e))
  {
  }

  /** "prev" undoes "next". */
  lemma PrevUndoesNext(lb: Lightbox)
    requires Valid(lb) && |lb.images| > 0
    ensures Prev(Next(lb)).index == lb.index
  {
  }

  function NextTimes(lb: Lightbox, k: nat): Lightbox
    requires Valid(lb) && |lb.images| > 0
    decreases k
  {
    if k == 0 then lb else NextTimes(Next(lb), k - 1)
  }

  lemma {:induction false} NextTimesRotates(lb: Lightbox, k: nat)
    requires Valid(lb) && |lb.images| > 0 && k <= |lb.images|
    ensures lb.index + k < |lb.images| ==> NextTimes(lb, k).index == lb.index + k
    ensures lb.index + k >= |lb.images| ==> NextTimes(lb, k).index == lb.index + k - |lb.images|
    decreases k
  {
    if k > 0 {
      NextTimesRotates(Next(lb), k - 1);
    }
  }

  /** len "next"s bring the lightbox back to the image it started on. */
  lemma FullCycleReturns(lb: Lightbox)
    requires Valid(lb) && |lb.images| > 0
    ensures NextTimes(lb, |lb.images|).index == lb.index
  {
    NextTimesRotates(lb, |lb.images|);
  }
}

=== FILE: relative_date.dfy ===
/**
 * The bucketing inside `GoogleReviews.formatDate` (google-reviews.js), as a
 * function of the whole number of days since the review. Parsing the date and
 * reading the clock stay outside; so does the locale month-and-year text used
 * from a year on, which appears here as the abstract label `MonthYear`.
 */
module RelativeDate {
  import opened Decimal

  datatype Label = Text(text: string) | MonthYear

  const Today := "Hoje"
  const Yesterday := "Ontem"

  function DaysText(days: nat): string {
    "Há " + NatToString(days) + " dias"
  }

  function MonthsText(months: nat): string {
    "Há " + NatToString(months) + " " + (if months == 1 then "mês" else "meses")
  }

  /** The relative label for a review `days` days old. */
  function FormatDays(days: nat): (l: Label)
    ensures l.MonthYear? <==> days >= 365
    ensures l == Text(Today) <==> days == 0
    ensures l == Text(Yesterday) <==> days == 1
  {
    if days == 0 then Text(Today)
    else if days == 1 then Text(Yesterday)
    else if days < 30 then Text(DaysText(days))
    else if days < 365 then Text(MonthsText(days / 30))
    else MonthYear
  }

  /** Under a month, the label names the exact day count, in the plural. */
  lemma DaysBucket(days: nat)
    requires 2 <= days < 30
    ensures FormatDays(days) == Text("Há " + NatToString(days) + " dias")
  {
  }

  /**
   * From 30 to 364 days the label counts whole months, between 1 and 12, and
   * uses the singular exactly for 30 to 59 days.
   */
  lemma MonthsBucket(days: nat)
    requires 30 <= days < 365
    ensures exists m: nat :: 1 <= m <= 12 && FormatDays(days) == Text(MonthsText(m)) && m == days / 30
    ensures FormatDays(days) == Text(MonthsText(1)) <==> days < 60
  {
  }

  lemma MonthsTextInjective(m: nat, m': nat)
    ensures MonthsText(m) == MonthsText(m') ==> m == m'
  {
    if MonthsText(m) == MonthsText(m') {
      var a, a' := NatToString(m), NatToString(m');
      var u, u' := if m == 1 then "mês" else "meses", if m' == 1 then "mês" else "meses";
      assert MonthsText(m) == "Há " + (a + (" " + u));
      assert MonthsText(m') == "Há " + (a' + (" " + u'));
      assert a + (" " + u) == MonthsText(m)[3..];
      assert a' + (" " + u') == MonthsText(m')[3..];
      DigitsThenTextUnique(a, " " + u, a', " " + u');
      NatToStringInjective(m, m');
    }
  }

  lemma DaysTextInjective(d: nat, d': nat)
    requires DaysText(d) == DaysText(d')
    ensures d == d'
  {
    var a, a' := NatToString(d), NatToString(d');
    assert DaysText(d) == "Há " + (a + " dias");
    assert DaysText(d') == "Há " + (a' + " dias");
    assert a + " dias" == DaysText(d)[3..];
    assert a' + " dias" == DaysText(d')[3..];
    DigitsThenTextUnique(a, " dias", a', " dias");
    NatToStringInjective(d, d');
  }

  /** Under a month, the label tells the day count back: distinct ages, distinct labels. */
  lemma DayLabelsDistinct(d: nat, d': nat)
    requires d < 30 && d' < 30 && FormatDays(d) == FormatDays(d')
    ensures d == d'
  {
    if 2 <= d && 2 <= d' {
      DaysTextInjective(d, d');
    }
  }

  /** Between a month and a year, two ages share a label exactly when they share a month count. */
  lemma MonthLabelsShareMonth(d: nat, d': nat)
    requires 30 <= d < 365 && 30 <= d' < 365
    ensures FormatDays(d) == FormatDays(d') <==> d / 30 == d' / 30
  {
    if FormatDays(d) == FormatDays(d') {
      MonthsTextInjective(d / 30, d' / 30);
    }
  }

  /** The examples: 10 days old reads "Há 10 dias", 40 days old reads "Há 1 mês". */
  lemma Examples()
    ensures FormatDays(10) == Text("Há 10 dias")
    ensures FormatDays(40) == Text("Há 1 mês")
  {
  }
}

=== FILE: review_card.dfy ===
/**
 * `GoogleReviews.createReviewCard` and `displayReviews` (google-reviews.js):
 * the field fallback chains that turn either shape of a Places review into one
 * card, and the cap on how many cards are shown. HTML escaping and the avatar
 * URL's `encodeURIComponent` stay abstract.
 */
module ReviewCard {
  import opened Common
  import Stars

  /** `review.text`: an object `{text, languageCode}` (new API) or a plain string (legacy API). */
  datatype TextField = TextObject(inner: Option<string>) | TextString(value: string)

  /**
   * `review.authorAttribution`. The card reads only `displayName`; the
   * Places API (New) puts the reviewer's photo in `photoUri`, which it never reads.
   */
  datatype Attribution = Attribution(displayName: Option<string>, photoUri: Option<string>)

  /** Every review field the card reads, each possibly `undefined`. */
  datatype RawReview = RawReview(
    authorAttribution: Option<Attribution>,
    authorName: Option<string>,            // author_name
    profilePhotoUrl: Option<string>,
    profilePhotoUrlLegacy: Option<string>, // profile_photo_url
    text: Option<TextField>,
    comment: Option<string>,
    rating: Option<nat>,                   // in tenths of a star
    publishTime: Option<string>,
    time: Option<int>)                     // legacy Unix seconds

  /** A present, non-empty string: truthy in JavaScript. */
  predicate Filled(s: Option<string>) {
    s.Some? && s.value != ""
  }

  const DefaultAuthor := "Avaliador do Google"
  const DefaultText := "Avaliação sem texto."
  /** What a text object renders as once it is used as a string. */
  const ObjectText := "[object Object]"
  /** `review.rating || 5`. */
  const DefaultRating: nat := 50

  datatype Photo = PhotoUrl(url: string) | GeneratedAvatar(forName: string)

  /** Which timestamp the card's date is computed from. */
  datatype Stamp = PublishTime(iso: string) | UnixTime(seconds: int)

  datatype Card = Card(author: string, photo: Photo, text: string, rating: nat, stars: string, date: Option<Stamp>)

  function AttributedName(r: RawReview): Option<string> {
    if r.authorAttribution.Some? then r.authorAttribution.value.displayName else None
  }

  /** `authorAttribution?.displayName || author_name || 'Avaliador do Google'`. */
  function ResolveAuthor(r: RawReview): (name: string)
    ensures name != ""
    ensures Filled(AttributedName(r)) ==> name == AttributedName(r).value
    ensures !Filled(AttributedName(r)) && Filled(r.authorName) ==> name == r.authorName.value
    ensures !Filled(AttributedName(r)) && !Filled(r.authorName) ==> name == DefaultAuthor
  {
    var attributed := AttributedName(r);
    if Filled(attributed) then attributed.value
    else if Filled(r.authorName) then r.authorName.value
    else DefaultAuthor
  }

  /** `profilePhotoUrl || profile_photo_url || <avatar generated from the name>`. */
  function ResolvePhoto(r: RawReview, author: string): (p: Photo)
    ensures Filled(r.profilePhotoUrl) ==> p == PhotoUrl(r.profilePhotoUrl.value)
    ensures !Filled(r.profilePhotoUrl) && Filled(r.profilePhotoUrlLegacy) ==> p == PhotoUrl(r.profilePhotoUrlLegacy.value)
    ensures p.GeneratedAvatar? <==> !Filled(r.profilePhotoUrl) && !Filled(r.profilePhotoUrlLegacy)
    ensures p.GeneratedAvatar? ==> p.forName == author
  {
    if Filled(r.profilePhotoUrl) then PhotoUrl(r.profilePhotoUrl.value)
    else if Filled(r.profilePhotoUrlLegacy) then PhotoUrl(r.profilePhotoUrlLegacy.value)
    else GeneratedAvatar(author)
  }

  /**
   * `text?.text || text || comment || 'Avaliação sem texto.'`. A text object
   * is always truthy, so one without a non-empty inner text is used as is and
   * renders as "[object Object]".
   */
  function ResolveText(r: RawReview): (t: string)
    ensures t != ""
    ensures r.text.Some? && r.text.value.TextObject? && Filled(r.text.value.inner) ==> t == r.text.value.inner.value
    ensures r.text.Some? && r.text.value.TextObject? && !Filled(r.text.value.inner) ==> t == ObjectText
    ensures r.text.Some? && r.text.value.TextString? && r.text.value.value != "" ==> t == r.text.value.value
    ensures (r.text.None? || r.text.value == TextString("")) && Filled(r.comment) ==> t == r.comment.value
    ensures (r.text.None? || r.text.value == TextString("")) && !Filled(r.comment) ==> t == DefaultText
  {
    match r.text
    case Some(TextObject(inner)) => if Filled(inner) then inner.value else ObjectText
    case Some(TextString(s)) => if s != "" then s else CommentOrDefault(r)
    case None => CommentOrDefault(r)
  }

  function CommentOrDefault(r: RawReview): string {
    if Filled(r.comment) then r.comment.value else DefaultText
  }

  /** `rating || 5`: a missing or zero rating counts as five stars. */
  function ResolveRating(r: RawReview): (x: nat)
    ensures x > 0
    ensures r.rating.Some? && r.rating.value > 0 ==> x == r.rating.value
    ensures r.rating.None? || r.rating.value == 0 ==> x == DefaultRating
  {
    if r.rating.Some? && r.rating.value > 0 then r.rating.value else DefaultRating
  }

  /** `publishTime || time || null`. */
  function ResolveStamp(r: RawReview): (s: Option<Stamp>)
    ensures Filled(r.publishTime) ==> s == Some(PublishTime(r.publishTime.value))
    ensures !Filled(r.publishTime) && r.time.Some? && r.time.value != 0 ==> s == Some(UnixTime(r.time.value))
    ensures s.None? <==> !Filled(r.publishTime) && (r.time.None? || r.time.value == 0)
  {
    if Filled(r.publishTime) then Some(PublishTime(r.publishTime.value))
    else if r.time.Some? && r.time.value != 0 then Some(UnixTime(r.time.value))
    else None
  }

  /**
   * `createReviewCard`: author, photo, text and rating always resolve to
   * something shown; the stars are `generateStars` as written, so a rating
   * with a fraction below one half gets only four glyphs.
   */
  function CreateCard(r: RawReview): (c: Card)
    ensures c.author != "" && c.text != "" && c.rating > 0
    ensures c.author == ResolveAuthor(r) && c.photo == ResolvePhoto(r, c.author) && c.text == ResolveText(r)
    ensures c.rating == ResolveRating(r) && c.date == ResolveStamp(r) && c.stars == Stars.StarsAsWritten(c.rating)
    ensures Stars.Count(c.stars, Stars.FullStar) * 10 <= c.rating < (Stars.Count(c.stars, Stars.FullStar) + 1) * 10
    ensures Stars.Ordered(c.stars)
    ensures c.rating <= 50 && (c.rating % 10 == 0 || c.rating % 10 >= 5) ==> |c.stars| == 5
    ensures 0 < c.rating % 10 < 5 && c.rating < 50 ==> |c.stars| == 4
  {
    var author := ResolveAuthor(r);
    var rating := ResolveRating(r);
    var stars := Stars.StarsAsWritten(rating);
    assert rating <= 50 ==> (|stars| == 5 <==> rating % 10 == 0 || rating % 10 >= 5) by {
      if rating <= 50 {
        Stars.StarsAsWrittenLength(rating);
      }
    }
    Card(author, ResolvePhoto(r, author), ResolveText(r), rating, stars, ResolveStamp(r))
  }

  /** The card with the corrected stars: the same card, now always five glyphs. */
  function CreateCardCorrected(r: RawReview): (c: Card)
    ensures c.(stars := CreateCard(r).stars) == CreateCard(r)
    ensures c.rating <= 50 ==> |c.stars| == 5
    ensures c.rating % 10 == 0 || c.rating % 10 >= 5 || c.rating > 50 ==> c == CreateCard(r)
  {
    var card := CreateCard(r);
    assert card.rating % 10 == 0 || card.rating % 10 >= 5 || card.rating > 50 ==>
             Stars.Stars(card.rating) == card.stars by {
      if card.rating <= 50 {
        Stars.StarsAgreeWithOriginal(card.rating);
      } else {
        Stars.LargeRatingsAgree(card.rating);
      }
    }
    card.(stars := Stars.Stars(card.rating))
  }

  /** `this.maxReviews`. */
  const MaxReviews: nat := 6

  /** `displayReviews`: one card for each of the first six reviews, in upstream order. */
  function DisplayedCards(reviews: seq<RawReview>): (cards: seq<Card>)
    ensures |cards| == Min(|reviews|, MaxReviews)
    ensures forall k :: 0 <= k < |cards| ==> cards[k] == CreateCard(reviews[k])
  {
    var shown := reviews[..Min(|reviews|, MaxReviews)];
    seq(|shown|, k requires 0 <= k < |shown| => CreateCard(shown[k]))
  }

  /** The two upstream shapes of one review. */
  datatype PlaceReview =
    | NewShape(displayName: string, photoUrl: string, reviewText: Option<string>, rating: nat, publishTime: string)
    | LegacyShape(authorName: string, profilePhotoUrl: string, plainText: string, rating: nat, time: int)

  /** The fields a review of each shape carries, everything else `undefined`. */
  function ToRaw(p: PlaceReview): RawReview {
    match p
    case NewShape(name, photo, text, rating, publishTime) =>
      RawReview(Some(Attribution(Some(name), Some(photo))), None, None, None,
                if text.Some? then Some(TextObject(text)) else None, None,
                Some(rating), Some(publishTime), None)
    case LegacyShape(name, photo, text, rating, time) =>
      RawReview(None, Some(name), None, Some(photo), Some(TextString(text)), None,
                Some(rating), None, Some(time))
  }

  /**
   * The same review in either shape gives the same card, apart from the photo
   * and which timestamp the date comes from. The new shape's photo sits under
   * the attribution, where the card never looks, so it always gets the
   * generated avatar; the legacy photo is shown whenever it is non-empty. A
   * new-shape review without text omits the text object; a legacy one carries
   * an empty string.
   */
  lemma ShapesNormaliseAlike(name: string, photo: string, newText: Option<string>, text: string,
                             rating: nat, publishTime: string, time: int)
    requires newText == (if text == "" then None else Some(text))
    ensures var a := CreateCard(ToRaw(NewShape(name, photo, newText, rating, publishTime)));
            var b := CreateCard(ToRaw(LegacyShape(name, photo, text, rating, time)));
            && a.(date := None, photo := b.photo) == b.(date := None)
            && a.photo == GeneratedAvatar(a.author)
            && (photo != "" <==> b.photo == PhotoUrl(photo))
  {
  }

  /**
   * A new-shape text object whose inner text is empty is still truthy, so the
   * card shows "[object Object]" where the legacy shape shows the default text.
   */
  lemma EmptyTextObjectShowsObject(name: string, photo: string, rating: nat, publishTime: string, time: int)
    ensures CreateCard(ToRaw(NewShape(name, photo, Some(""), rating, publishTime))).text == ObjectText
    ensures CreateCard(ToRaw(LegacyShape(name, photo, "", rating, time))).text == DefaultText
  {
  }
}

=== FILE: reviews_client.dfy ===
/**
 * The control flow of `GoogleReviews` (google-reviews.js): reading the config
 * the backend returns, the order of the configuration checks in `init`, and
 * which reply of the new and of the legacy Places API leads to cards or to an
 * error message. Every network exchange is an input; `requests` counts the
 * upstream requests the flow makes.
 */
module ReviewsClient {
  import opened Common
  import opened Json
  import opened ReviewCard

  /** `this.apiKey`, `this.placeId` (held as whatever JSON value the backend sent). */
  datatype ClientConfig = ClientConfig(apiKey: Json, placeId: Json)

  /** The answer to `fetch('/api/config')`: a failed request, or a body's fields. */
  datatype ConfigReply =
    | BackendUnreachable
    | BackendReply(success: Option<Json>, apiKey: Option<Json>, placeId: Option<Json>)

  /** `loadConfigFromBackend`: takes the fields only from a successful reply, else keeps ''. */
  function LoadConfigFromBackend(reply: ConfigReply): (cfg: ClientConfig)
    ensures reply.BackendReply? && Truthy(reply.success) ==>
              cfg == ClientConfig(OrElse(reply.apiKey, JStr("")), OrElse(reply.placeId, JStr("")))
    ensures !(reply.BackendReply? && Truthy(reply.success)) ==> cfg == ClientConfig(JStr(""), JStr(""))
  {
    match reply
    case BackendUnreachable => ClientConfig(JStr(""), JStr(""))
    case BackendReply(success, apiKey, placeId) =>
      if Truthy(success) then ClientConfig(OrElse(apiKey, JStr("")), OrElse(placeId, JStr("")))
      else ClientConfig(JStr(""), JStr(""))
  }

  /** What the reviews container ends up holding. */
  datatype Screen = ErrorMessage(message: string) | Cards(cards: seq<Card>)

  /** The Places API (New) reply: rejected (non-2xx, network or parse error), or a body. */
  datatype NewReply = NewRejected | NewBody(reviews: Option<seq<RawReview>>)

  /** The legacy Places API reply: rejected, or `{status, result: {reviews}}`. */
  datatype LegacyReply = LegacyRejected | LegacyBody(status: Option<string>, result: Option<LegacyResult>)
  datatype LegacyResult = LegacyResult(reviews: Option<seq<RawReview>>)

  datatype Outcome = Outcome(screen: Screen, requests: nat)

  const NoApiKeyMessage := "Avaliações do Google não configuradas. Configure a chave de API no backend."
  const NoPlaceIdMessage := "Place ID não configurado. Configure o Place ID no backend."
  const NoReviewsMessage := "Nenhuma avaliação encontrada."
  const LegacyFailedMessage := "Não foi possível carregar as avaliações."
  const LegacyRejectedMessage := "Erro ao conectar com o Google."

  /** The new shape is accepted only with a non-empty `reviews` list. */
  predicate NewAccepted(reply: NewReply) {
    reply.NewBody? && reply.reviews.Some? && |reply.reviews.value| > 0
  }

  /** The legacy shape is accepted only with `status === 'OK'` and a `result.reviews` list (even an empty one). */
  predicate LegacyAccepted(reply: LegacyReply) {
    && reply.LegacyBody?
    && reply.status == Some("OK")
    && reply.result.Some?
    && reply.result.value.reviews.Some?
  }

  /** `fetchReviewsLegacy`: one request. */
  function FetchReviewsLegacy(reply: LegacyReply): (o: Outcome)
    ensures o.requests == 1
    ensures o.screen.Cards? <==> LegacyAccepted(reply)
    ensures LegacyAccepted(reply) ==> o.screen.cards == DisplayedCards(reply.result.value.reviews.value)
    ensures reply.LegacyRejected? ==> o.screen == ErrorMessage(LegacyRejectedMessage)
    ensures reply.LegacyBody? && !LegacyAccepted(reply) ==> o.screen == ErrorMessage(LegacyFailedMessage)
  {
    match reply
    case LegacyRejected => Outcome(ErrorMessage(LegacyRejectedMessage), 1)
    case LegacyBody(status, result) =>
      if status == Some("OK") && result.Some? && result.value.reviews.Some? then
        Outcome(Cards(DisplayedCards(result.value.reviews.value)), 1)
      else
        Outcome(ErrorMessage(LegacyFailedMessage), 1)
  }

  /**
   * `fetchReviews`: the legacy API is tried only when the new request throws;
   * a new-shape body without reviews ends in its own message.
   */
  function FetchReviews(newReply: NewReply, legacyReply: LegacyReply): (o: Outcome)
    ensures NewAccepted(newReply) ==> o == Outcome(Cards(DisplayedCards(newReply.reviews.value)), 1)
    ensures newReply.NewBody? && !NewAccepted(newReply) ==> o == Outcome(ErrorMessage(NoReviewsMessage), 1)
    ensures newReply.NewRejected? ==> o.requests == 2 && o.screen == FetchReviewsLegacy(legacyReply).screen
  {
    match newReply
    case NewRejected =>
      var legacy := FetchReviewsLegacy(legacyReply);
      Outcome(legacy.screen, 1 + legacy.requests)
    case NewBody(reviews) =>
      if reviews.Some? && |reviews.value| > 0 then Outcome(Cards(DisplayedCards(reviews.value)), 1)
      else Outcome(ErrorMessage(NoReviewsMessage), 1)
  }

  /** `init`: the API key is checked before the Place ID, and neither missing value ever fetches. */
  function Init(cfg: ClientConfig, newReply: NewReply, legacyReply: LegacyReply): (o: Outcome)
    ensures !Truthy(Some(cfg.apiKey)) ==> o == Outcome(ErrorMessage(NoApiKeyMessage), 0)
    ensures Truthy(Some(cfg.apiKey)) && !Truthy(Some(cfg.placeId)) ==> o == Outcome(ErrorMessage(NoPlaceIdMessage), 0)
    ensures o.requests > 0 <==> Truthy(Some(cfg.apiKey)) && Truthy(Some(cfg.placeId))
    ensures o.screen.Cards? ==> |o.screen.cards| <= MaxReviews
  {
    if !Truthy(Some(cfg.apiKey)) then Outcome(ErrorMessage(NoApiKeyMessage), 0)
    else if !Truthy(Some(cfg.placeId)) then Outcome(ErrorMessage(NoPlaceIdMessage), 0)
    else FetchReviews(newReply, legacyReply)
  }

  /** Cards are shown exactly when one of the two replies is in an accepted shape, tried in order. */
  lemma CardsIffAccepted(cfg: ClientConfig, newReply: NewReply, legacyReply: LegacyReply)
    requires Truthy(Some(cfg.apiKey)) && Truthy(Some(cfg.placeId))
    ensures Init(cfg, newReply, legacyReply).screen.Cards? <==>
              NewAccepted(newReply) || (newReply.NewRejected? && LegacyAccepted(legacyReply))
  {
  }
}

=== FILE: stars.dfy ===
/**
 * `GoogleReviews.generateStars` (google-reviews.js), over a rating given in
 * integer tenths of a star (43 stands for 4.3).
 */
module Stars {

  const FullStar: char := '★'
  const HalfStar: char := '½'
  const EmptyStar: char := '☆'

  /** A `for (let i = 0; i < n; i++) stars += c` loop: nothing when `n <= 0`. */
  function Repeat(c: char, n: int): (s: string)
    ensures |s| == if n > 0 then n else 0
    decreases if n > 0 then n else 0
  {
    if n <= 0 then [] else [c] + Repeat(c, n - 1)
  }

  /** How many times glyph `c` occurs in `s`. */
  function Count(s: string, c: char): nat {
    multiset(s)[c]
  }

  lemma {:induction false} RepeatCount(c: char, n: int, d: char)
    ensures Count(Repeat(c, n), d) == if c == d && n > 0 then n else 0
    decreases if n > 0 then n else 0
  {
    if n > 0 {
      RepeatCount(c, n - 1, d);
      assert multiset(Repeat(c, n)) == multiset([c]) + multiset(Repeat(c, n - 1));
    }
  }

  /** `Math.ceil(rating)` for a rating in tenths. */
  function CeilStars(tenths: nat): nat {
    (tenths + 9) / 10
  }

  lemma CeilStarsSplit(tenths: nat)
    ensures tenths == 10 * (tenths / 10) + tenths % 10 && 0 <= tenths % 10 < 10
    ensures CeilStars(tenths) == tenths / 10 + (if tenths % 10 == 0 then 0 else 1)
  {
  }

  /** `Math.floor(rating)`. */
  function FullCount(tenths: nat): nat {
    tenths / 10
  }

  /** `rating % 1 >= 0.5 && fullStars < 5`. */
  predicate HalfShown(tenths: nat) {
    tenths % 10 >= 5 && FullCount(tenths) < 5
  }

  function Glyphs(full: int, half: bool, empty: int): string {
    Repeat(FullStar, full) + (if half then [HalfStar] else []) + Repeat(EmptyStar, empty)
  }

  /** Where a glyph may stand: full stars first, then the half star, then empty ones. */
  function Rank(c: char): nat {
    if c == FullStar then 0 else if c == HalfStar then 1 else 2
  }

  predicate Ordered(s: string) {
    forall i, j :: 0 <= i < j < |s| ==> Rank(s[i]) <= Rank(s[j])
  }

  lemma {:induction false} RepeatAll(c: char, n: int)
    ensures forall i :: 0 <= i < |Repeat(c, n)| ==> Repeat(c, n)[i] == c
    decreases if n > 0 then n else 0
  {
    if n > 0 {
      RepeatAll(c, n - 1);
      assert Repeat(c, n) == [c] + Repeat(c, n - 1);
    }
  }

  lemma GlyphsOrdered(full: int, half: bool, empty: int)
    ensures Ordered(Glyphs(full, half, empty))
  {
    var a := Repeat(FullStar, full);
    var b: string := if half then [HalfStar] else [];
    var e := Repeat(EmptyStar, empty);
    var s := Glyphs(full, half, empty);
    RepeatAll(FullStar, full);
    RepeatAll(EmptyStar, empty);
    assert s == a + b + e;
    forall i, j | 0 <= i < j < |s|
      ensures Rank(s[i]) <= Rank(s[j])
    {
      if i < |a| {
        assert s[i] == a[i];
      } else if i < |a| + |b| {
        assert s[j] == e[j - |a| - |b|];
      } else {
        assert s[i] == e[i - |a| - |b|] && s[j] == e[j - |a| - |b|];
      }
    }
  }

  lemma GlyphCounts(full: int, half: bool, empty: int)
    ensures Count(Glyphs(full, half, empty), FullStar) == if full > 0 then full else 0
    ensures Count(Glyphs(full, half, empty), HalfStar) == if half then 1 else 0
    ensures Count(Glyphs(full, half, empty), EmptyStar) == if empty > 0 then empty else 0
    ensures |Glyphs(full, half, empty)|
            == (if full > 0 then full else 0) + (if half then 1 else 0) + (if empty > 0 then empty else 0)
  {
    RepeatCount(FullStar, full, FullStar);
    RepeatCount(FullStar, full, HalfStar);
    RepeatCount(FullStar, full, EmptyStar);
    RepeatCount(EmptyStar, empty, FullStar);
    RepeatCount(EmptyStar, empty, HalfStar);
    RepeatCount(EmptyStar, empty, EmptyStar);
  }

  /**
   * `generateStars` as written: floor(r) full stars, a half star when the
   * fraction is at least one half and fewer than five stars are full, then
   * `5 - Math.ceil(r)` empty stars.
   */
  function StarsAsWritten(tenths: nat): (s: string)
    ensures Count(s, FullStar) * 10 <= tenths < (Count(s, FullStar) + 1) * 10
    ensures Count(s, HalfStar) == if tenths % 10 >= 5 && tenths < 50 then 1 else 0
    ensures tenths > 50 ==> Count(s, EmptyStar) == 0
    ensures tenths <= 50 ==>
              (5 - Count(s, EmptyStar) - 1) * 10 < tenths <= (5 - Count(s, EmptyStar)) * 10
    ensures |s| == Count(s, FullStar) + Count(s, HalfStar) + Count(s, EmptyStar)
    ensures Ordered(s)
  {
    var full := FullCount(tenths);
    var half := HalfShown(tenths);
    var empty := 5 - CeilStars(tenths);
    var s := Glyphs(full, half, empty);
    CeilStarsSplit(tenths);
    GlyphCounts(full, half, empty);
    GlyphsOrdered(full, half, empty);
    assert Count(s, FullStar) == full;
    assert full < 5 <==> tenths < 50;
    s
  }

  /**
   * As written, a whole rating or one whose fraction is at least one half
   * gives five glyphs, but a fraction strictly between 0 and one half gives
   * only four: the empty-star count already rounds the fraction up.
   */
  lemma StarsAsWrittenLength(tenths: nat)
    requires tenths <= 50
    ensures tenths % 10 == 0 || tenths % 10 >= 5 ==> |StarsAsWritten(tenths)| == 5
    ensures 0 < tenths % 10 < 5 ==> |StarsAsWritten(tenths)| == 4
  {
  }

  /** The concrete case: 4.3 stars renders as four full stars and nothing else. */
  lemma FourPointThreeHasFourGlyphs()
    ensures StarsAsWritten(43) == "★★★★"
  {
    assert FullCount(43) == 4 && !HalfShown(43) && CeilStars(43) == 5;
    assert Repeat(EmptyStar, 0) == [];
    assert Repeat(FullStar, 4) == "★★★★";
  }

  /**
   * `generateStars`, corrected: the empty stars fill whatever the full and half
   * stars leave of five, so 4.3 renders as four full stars and one empty one.
   */
  function Stars(tenths: nat): (s: string)
    ensures tenths <= 50 ==> |s| == 5
    ensures Count(s, FullStar) * 10 <= tenths < (Count(s, FullStar) + 1) * 10
    ensures Count(s, HalfStar) == if tenths % 10 >= 5 && tenths < 50 then 1 else 0
    ensures tenths > 50 ==> Count(s, EmptyStar) == 0
    ensures tenths <= 50 ==> Count(s, EmptyStar) + Count(s, HalfStar) + Count(s, FullStar) == 5
    ensures |s| == Count(s, FullStar) + Count(s, HalfStar) + Count(s, EmptyStar)
    ensures Ordered(s)
  {
    var full := FullCount(tenths);
    var half := HalfShown(tenths);
    var empty := 5 - full - (if half then 1 else 0);
    CeilStarsSplit(tenths);
    GlyphCounts(full, half, empty);
    GlyphsOrdered(full, half, empty);
    Glyphs(full, half, empty)
  }

  /**
   * The correction changes nothing for whole ratings and fractions of at least
   * one half; it differs from the original exactly on fractions below one half.
   */
  lemma StarsAgreeWithOriginal(tenths: nat)
    requires tenths <= 50
    ensures Stars(tenths) == StarsAsWritten(tenths) <==> tenths % 10 == 0 || tenths % 10 >= 5
  {
    StarsAsWrittenLength(tenths);
    if tenths % 10 == 0 || tenths % 10 >= 5 {
      SameEmptyCount(tenths);
    }
  }

  lemma SameEmptyCount(tenths: nat)
    requires tenths <= 50 && (tenths % 10 == 0 || tenths % 10 >= 5)
    ensures Stars(tenths) == StarsAsWritten(tenths)
  {
    var full := FullCount(tenths);
    var half := HalfShown(tenths);
    CeilStarsSplit(tenths);
    var empty := 5 - CeilStars(tenths);
    if tenths % 10 == 0 {
      assert !half && empty == 5 - full;
    } else {
      assert half && empty == 5 - full - 1;
    }
    assert Stars(tenths) == Glyphs(full, half, empty);
    assert StarsAsWritten(tenths) == Glyphs(full, half, empty);
  }

  /** Above five stars neither version draws a half or an empty star, so they agree. */
  lemma LargeRatingsAgree(tenths: nat)
    requires tenths > 50
    ensures Stars(tenths) == StarsAsWritten(tenths)
  {
    var full: int := FullCount(tenths);
    var ceil: int := CeilStars(tenths);
    CeilStarsSplit(tenths);
    assert !HalfShown(tenths);
    assert Repeat(EmptyStar, 5 - full) == [] && Repeat(EmptyStar, 5 - ceil) == [];
    assert Stars(tenths) == Glyphs(full, false, 5 - full);
    assert StarsAsWritten(tenths) == Glyphs(full, false, 5 - ceil);
  }

  /** 3.5 renders as three full stars, the half star and one empty star, in that order. */
  lemma ThreeAndAHalf()
    ensures StarsAsWritten(35) == "★★★½☆"
    ensures Stars(35) == "★★★½☆"
  {
    assert FullCount(35) == 3 && HalfShown(35) && CeilStars(35) == 4;
    assert Repeat(FullStar, 3) == "★★★";
    assert Repeat(EmptyStar, 1) == "☆";
  }
}

=== FILE: swipe.dfy ===
/**
 * The horizontal swipe rule shared by the carousel and the lightbox, and the
 * touchstart / touchmove / touchend tracker that feeds it (app.js).
 */
module Swipe {
  import opened Common

  /** A drag must travel strictly more than this many pixels to count. */
  const Threshold: nat := 50

  datatype Gesture = NoGesture | SwipeNext | SwipePrev

  /**
   * With `diff = startX - endX`: a leftward drag (positive diff) beyond the
   * threshold means "next", a rightward one means "prev", anything else nothing.
   */
  function Classify(startX: int, endX: int): (g: Gesture)
    ensures g == SwipeNext <==> startX - endX > Threshold
    ensures g == SwipePrev <==> endX - startX > Threshold
    ensures g == NoGesture <==> Abs(startX - endX) <= Threshold
  {
    var diff := startX - endX;
    if Abs(diff) > Threshold then
      if diff > 0 then SwipeNext else SwipePrev
    else
      NoGesture
  }

  /** Per-element touch bookkeeping: `startX`, `currentX`, `isDragging`. */
  datatype Touch = Touch(startX: int, currentX: int, dragging: bool)

  /** The tracker as the handlers create it: both coordinates 0, not dragging. */
  const Fresh := Touch(0, 0, false)

  /** What a touchend did: nothing (no drag in progress) or finished a drag. */
  datatype Release = Ignored | Ended(gesture: Gesture)

  /**
   * touchstart as written: records `startX` and starts dragging, but leaves
   * `currentX` at whatever the previous gesture (or the initial 0) left there.
   */
  function TouchStartAsWritten(t: Touch, x: int): (r: Touch)
    ensures r.dragging && r.startX == x
    ensures r.currentX == t.currentX
  {
    t.(startX := x, dragging := true)
  }

  /** touchstart, corrected: a new gesture starts and ends where the finger is. */
  function TouchStart(t: Touch, x: int): (r: Touch)
    ensures r.dragging && r.startX == x
    ensures Classify(r.startX, r.currentX) == NoGesture
  {
    Touch(x, x, true)
  }

  /** touchmove: only tracked while a drag is in progress. */
  function TouchMove(t: Touch, x: int): (r: Touch)
    ensures r.startX == t.startX && r.dragging == t.dragging
    ensures r.currentX == if t.dragging then x else t.currentX
  {
    if !t.dragging then t else t.(currentX := x)
  }

  /** touchend: ignored unless dragging; otherwise stops and classifies the drag. */
  function TouchEnd(t: Touch): (r: (Touch, Release))
    ensures !r.0.dragging
    ensures r.1.Ignored? <==> !t.dragging
    ensures t.dragging ==> r.1 == Ended(Classify(t.startX, t.currentX))
  {
    if !t.dragging then (t, Ignored)
    else (t.(dragging := false), Ended(Classify(t.startX, t.currentX)))
  }

  /** A sequence of touchmove events. */
  function Drag(t: Touch, moves: seq<int>): Touch
    decreases |moves|
  {
    if |moves| == 0 then t else Drag(TouchMove(t, moves[0]), moves[1..])
  }

  function LastOr(moves: seq<int>, default: int): int {
    if |moves| == 0 then default else moves[|moves| - 1]
  }

  /** While dragging, moves keep the start and leave the last move as current. */
  lemma {:induction false} DragTracksLastMove(t: Touch, moves: seq<int>)
    requires t.dragging
    ensures Drag(t, moves) == t.(currentX := LastOr(moves, t.currentX))
    decreases |moves|
  {
    if |moves| > 0 {
      DragTracksLastMove(TouchMove(t, moves[0]), moves[1..]);
      if |moves| > 1 {
        assert moves[1..][|moves[1..]| - 1] == moves[|moves| - 1];
      }
    }
  }

  /**
   * With the corrected touchstart, a gesture is decided by where it started and
   * where the last move left it; a tap with no move is never a swipe.
   */
  lemma GestureOfDrag(t: Touch, x: int, moves: seq<int>)
    ensures TouchEnd(Drag(TouchStart(t, x), moves)).1 == Ended(Classify(x, LastOr(moves, x)))
  {
    DragTracksLastMove(TouchStart(t, x), moves);
  }

  /** As written, a tap without any move is classified against a stale `currentX`. */
  lemma GestureOfDragAsWritten(t: Touch, x: int, moves: seq<int>)
    ensures TouchEnd(Drag(TouchStartAsWritten(t, x), moves)).1
            == Ended(Classify(x, LastOr(moves, t.currentX)))
  {
    DragTracksLastMove(TouchStartAsWritten(t, x), moves);
  }

  /**
   * The discrepancy: on a freshly set-up element, a plain tap at x = 200 fires
   * "next" as written, while the corrected tracker reports no gesture.
   */
  lemma TapOnFreshElementSwipes()
    ensures TouchEnd(TouchStartAsWritten(Fresh, 200)).1 == Ended(SwipeNext)
    ensures TouchEnd(TouchStart(Fresh, 200)).1 == Ended(NoGesture)
  {
  }
}
